=== FILE: README.md ===
# TaskManager in Dafny

A model of TaskManager, a task tracker with a React client and a Django REST
backend. It covers these parts of the system:

- **Client data-access layer** (`AppContext.jsx`):
  - the JWT refresh;
  - the response interceptor on the global `axios`, which refreshes and retries on a 401;
  - the bearer-token request interceptor on `axiosInstance`;
  - the login, registration and task endpoints.
- **Application shell** (`App.jsx`):
  - restoring the session user from `localStorage` at startup;
  - sign-in, sign-out, and choosing the screen.
- **Task dashboard** (`TaskDashboard.jsx`):
  - the create, update, delete and status-change handlers;
  - the status filter;
  - the per-user `saveTasks` merge into the locally kept task list.
- **Task form** (`TaskForm.jsx`): its defaults, the prefill of an edited task, and the submit handler with its own `fetch`.
- **Task list view** (`TaskList.jsx`): the status toggle cycle, the priority colours, the status icons and the overdue badge.
- **Statistics panel** (`TaskStats.jsx`).
- **Profile page** (`UseraProfile.jsx`): the initials, the password change and the profile update against the locally kept user list.
- **Server data model** (`models.py`): the user manager's validation, the choice lists and the task defaults.
- **Server views** (`views.py`): the permissions, the login response, and the per-user task queryset behind list, create, retrieve, update and delete.

## How the model is built

The model is purely functional.

**Storage.** `localStorage` is a map from key to value. A JSON blob is kept in decoded form, as a user, a list of users or a list of tasks. The empty string stands for every falsy JavaScript value, except for a task's `dueDate`: there a missing key (`undefined`) and an empty date are told apart (see `Records.Task`).

**Network.** The network is an oracle:
- a sequence of server replies, consumed one per request;
- a log of every request sent.

This lets the lemmas count requests, refreshes and retries. Which interceptor sits on which axios object is a parameter (`Api.Client`), so one definition of a call covers both the wiring as written and the corrected wiring.

**Modules.** There is one module per source file:
- `Api`, `App`, `Dashboard`, `TaskForm`, `TaskView`, `Stats` and `Profile` for the client;
- `ApiModels` and `ApiViews` for the server.

They rest on shared modules:
- `Wrappers`: `Option`, `Result`;
- `Seqs`: filtering with its counting lemmas, and pointwise map;
- `Numerals`: the decimal text of a task id;
- `Records`: the task and user records and the status and priority literals;
- `Storage`: the store, token reads and list reads.

**Behaviour of the code worth knowing.**
- `handleLogout` (App.jsx:30-34) removes only `taskManager_user` and `taskManager_tasks`; the access and refresh tokens stay in storage (`App.LogoutKeepsTokens`).
- The client spells the task's due date two ways:
  - the form and the statistics panel read and write `dueDate`;
  - the list view and the server read `due_date`.

  `Records.Task` carries both as separate fields. `dueDate` is optional, because `JSON.stringify` drops a key whose value is `undefined`. `Stats.OverdueIgnoresSnakeCaseDate`, `Stats.BadgeAndPanelReadDifferentDueDates` and `TaskForm.PrefillPayload` show what the two spellings cost.
- `saveTasks` (TaskDashboard.jsx:40-46) is defined but never called anywhere in the dashboard: it is dead code in the source. `Dashboard.SaveTasks` models what it would do.

## Model

| member | source | states |
|---|---|---|
| Api.WithBearer | frontend/src/context/AppContext.jsx:49-58 | the request interceptor sets `Authorization: Bearer <token>` exactly when an access token is stored; otherwise the config passes through unchanged, and verb, url, body and `_retry` are always kept |
| Api.Call | frontend/src/context/AppContext.jsx:32-46 | one axios call consumes at least one server reply (unless none is left), only appends to the request log, and changes no stored key except `access_token` |
| Api.Refresh | frontend/src/context/AppContext.jsx:8-19 | a refresh only appends to the request log, never consumes more replies than there are, and writes no stored key except `access_token` |
| Api.RefreshWithoutTokenIsSilent | frontend/src/context/AppContext.jsx:9-10 | without a stored refresh token, the refresh returns null, sends nothing and changes nothing |
| Api.FixedRefreshPostsOnce | frontend/src/context/AppContext.jsx:8-19 | when the refresh bypasses the response interceptor, it posts exactly one request. Success stores the returned access token and returns the same token. A reply without `access` stores "undefined" and returns nothing. A failed post returns null and leaves storage untouched |
| Api.RefreshCascades | frontend/src/context/AppContext.jsx:8-46 | as written, a refresh endpoint that answers 401 k times draws k+1 refresh posts out of a single refresh, and the refresh then gives up |
| Api.RetriedCallSendsOnce | frontend/src/context/AppContext.jsx:36-44 | a config already marked `_retry` is sent exactly once, never triggers another refresh, and settles with its own reply (no reply rejects as no response) |
| Api.AsWrittenRefreshAgreesUnless401 | frontend/src/context/AppContext.jsx:8-19 | unless its first post draws a 401, the refresh as written gives the same result, store and log as the corrected one, so it inherits that one's success and failure promises |
| Api.RefreshStoresTokenYetFails | frontend/src/context/AppContext.jsx:12-18 | as written, a 401, then a successful nested refresh storing `t`, then a failed retried post: the refresh returns null although `access_token` now holds `t`, after three refresh posts |
| Api.TaskCallNeverRefreshes | frontend/src/context/AppContext.jsx:72-90 | as written, a task call through `axiosInstance` sends one request, and a 401 reaches the caller without any refresh |
| Api.TaskCallCarriesBearer | frontend/src/context/AppContext.jsx:49-58 | every task call goes out with `Bearer <stored access token>` |
| Api.TaskCallRefreshesAtMostOnce | frontend/src/context/AppContext.jsx:32-46 | with corrected wiring, one task call issues between one and three requests, and at most one of them is a refresh post |
| Api.TaskCallPassesOtherReplies | frontend/src/context/AppContext.jsx:36-44 | any reply other than 401 settles the task call immediately, with that reply and a single request |
| Api.TaskCallRejectsWhenRefreshFails | frontend/src/context/AppContext.jsx:36-44 | after a 401, if the refresh yields no truthy token (no refresh token, no reply, a rejected post, or a reply without a non-empty `access`), the call rejects with the original 401. The log holds exactly the call and at most the one refresh post, so there is no retry. Storage changes only when the refresh post resolved, storing its `access` or "undefined" |
| Api.TaskCallRecoversFrom401 | frontend/src/context/AppContext.jsx:36-41 | after a 401 and a successful refresh, the same request is re-sent once with the new bearer and settles with the retry's reply |
| Api.TaskUrlsAgree | frontend/src/context/AppContext.jsx:72-90 | list and create address the collection URL; update and delete address the same item URL `tasks/<id>/`; distinct ids give distinct item URLs, and no item URL is the collection URL |
| Api.LoginRequest | frontend/src/context/AppContext.jsx:61-64 | login is a POST without a bearer to the login URL, whose body is exactly `{username, password}` as given |
| Api.RegisterRequest | frontend/src/context/AppContext.jsx:66-69 | registration is a POST without a bearer to the register URL, whose body is exactly `{username, email, password}` as given |
| App.Restore | frontend/src/App.jsx:16-23 | at startup a user is restored if and only if `taskManager_user` holds a user, and it is that user; with no such key there is no user |
| App.Login | frontend/src/App.jsx:25-28 | signing in sets the session user and writes only `taskManager_user` |
| App.Logout | frontend/src/App.jsx:30-34 | signing out clears the user and removes exactly `taskManager_user` and `taskManager_tasks`; every other stored key is kept with its value |
| App.LoginIsRestored | frontend/src/App.jsx:16-28 | after a reload following sign-in, startup restores the same user |
| App.LogoutKeepsTokens | frontend/src/App.jsx:30-34 | after sign-out, startup has no user, but both JWTs are still stored exactly as before |
| App.Render | frontend/src/App.jsx:36-46 | the spinner shows exactly while loading, the dashboard exactly when a user is set, and otherwise whichever form the toggle selects |
| App.SignInShowsDashboard | frontend/src/App.jsx:121-123 | a sign-in from either form shows that user's dashboard; after sign-out the form toggle decides the screen |
| App.ProfileUpdateIsRestored | frontend/src/pages/UseraProfile.jsx:39-40 | a saved profile edit survives a reload: startup restores the session user with the new name and email |
| Dashboard.CreateTask | frontend/src/pages/TaskDashboard.jsx:48-56 | create makes one create call; on success the server's task is appended to the end of the list, and on failure the list is unchanged |
| Dashboard.ReplaceById | frontend/src/pages/TaskDashboard.jsx:63-65 | the list keeps its length and order; every task with the id becomes the server's task, and every other task is untouched |
| Dashboard.UpdateTask | frontend/src/pages/TaskDashboard.jsx:59-71 | with no task being edited, nothing happens and no call is made; otherwise one update call is made, and on success the edited id is replaced by the server's task |
| Dashboard.DeleteTask | frontend/src/pages/TaskDashboard.jsx:73-80 | on success, no task with the id remains and every other task is still listed; on failure, the list is unchanged |
| Dashboard.DeleteKeepsOrder | frontend/src/pages/TaskDashboard.jsx:76 | delete keeps the survivors in their relative order, each as many times as before |
| Dashboard.FindById | frontend/src/pages/TaskDashboard.jsx:84 | the result is the first task with the id, and it is absent exactly when no task has that id |
| Dashboard.ChangeStatus | frontend/src/pages/TaskDashboard.jsx:82-92 | the call sends the found task with the new status (only `{status}` when none is found), and on success every task with the id is replaced by the server's answer |
| Dashboard.FilterTasks | frontend/src/pages/TaskDashboard.jsx:94-96 | the filter "all" shows every task; any other filter shows exactly the tasks with that status |
| Dashboard.FilterTasksKeepsOrder | frontend/src/pages/TaskDashboard.jsx:94-96 | a filtered view keeps list order and multiplicity, and it splits like its list |
| Dashboard.SaveTasks | frontend/src/pages/TaskDashboard.jsx:40-46 | saving fails exactly when the stored list cannot be read; otherwise it writes only `taskManager_tasks` and shows exactly the updated list |
| Dashboard.SaveTasksKeepsOtherUsers | frontend/src/pages/TaskDashboard.jsx:40-46 | the stored list is exactly the other users' stored tasks, in their order, followed by the updated list; hence every other user's task keeps its multiplicity and the current user's stored tasks become exactly that user's tasks among the updated list |
| Dashboard.CreateSubmitPostsTwice | frontend/src/pages/TaskDashboard.jsx:48-56 | as written, one submit of a new task sends two POSTs to the collection, and the list shows the second copy |
| Dashboard.Submit | frontend/src/pages/TaskForm.jsx:64-65 | corrected: a submit sends at most one request; on success the form's own result is appended (create) or replaced by id (edit); without a token, or on failure, the list stays as it was |
| TaskForm.Prefill | frontend/src/pages/TaskForm.jsx:19-27 | an edited task overwrites all five fields, with the due date read from `dueDate` (absent when the task has no such key); without a task, the fields stay |
| TaskForm.PrefillPayload | frontend/src/pages/TaskForm.jsx:19-41 | after the prefill, the payload carries the edited task's title, description, priority and status, and its `dueDate` exactly when the task has that key; a server task with only `due_date` is sent back with no due date under either key |
| TaskForm.BlankFormDefaults | frontend/src/pages/TaskForm.jsx:11-17 | a fresh form asks for a medium-priority todo task with empty text and an empty (not absent) due date |
| TaskForm.Payload | frontend/src/pages/TaskForm.jsx:41 | the body has the keys title, description, priority and status, plus `dueDate` exactly when that field is not `undefined`, and never `due_date`; each key holds its form field |
| TaskForm.Submit | frontend/src/pages/TaskForm.jsx:29-71 | without a token, no request is sent and "User not authenticated" is shown. Otherwise one PUT (edit) or POST (create) is sent with the bearer. Exactly a 2xx reply reaches `onSubmit`. Failures show `detail`, falling back to "Something went wrong", or the thrown message. Loading always ends false |
| TaskForm.SubmitTargetsTaskUrls | frontend/src/pages/TaskForm.jsx:44-48 | an edit is a PUT to the item URL that the client's update and delete calls use; a creation is a POST to the collection URL of the client's create call |
| TaskView.NextStatus | frontend/src/pages/TaskList.jsx:92-97 | the toggle always requests a known status: completed goes to todo, todo to in-progress, and anything else to completed |
| TaskView.NextStatusCycles | frontend/src/pages/TaskList.jsx:92-97 | on the known statuses the toggle never stays put, and three presses return to the start |
| TaskView.NextStatusIsPermutation | frontend/src/pages/TaskList.jsx:92-97 | the toggle is one-to-one and onto on the three known statuses |
| TaskView.PriorityColorsDistinguish | frontend/src/pages/TaskList.jsx:25-36 | the three priorities get distinct colours, and exactly the other strings get grey |
| TaskView.StatusIconClassifies | frontend/src/pages/TaskList.jsx:38-47 | the check and play icons identify completed and in-progress exactly; todo and unknown statuses share the plain circle |
| TaskView.IsOverdue | frontend/src/pages/TaskList.jsx:59-64 | a task is overdue exactly when it has a due date that falls before today |
| TaskView.DueBadgeOf | frontend/src/pages/TaskList.jsx:125-133 | a badge is drawn exactly when `due_date` is set, and it is marked overdue exactly when that date is before today |
| Stats.CompletionPercent | frontend/src/pages/TaskStats.jsx:34 | the shown rate (the ratio from line 13) is the nearest whole percent, with halves rounding up. It is 0 for no tasks or none completed, 100 when all are completed, and never above 100 |
| Stats.Summarize | frontend/src/pages/TaskStats.jsx:7-20 | the total is the list length, and the rate is `CompletionPercent` of the completed count over the total. Completed, in-progress and todo counts are disjoint and add up to the total when every status is known. The rate is at most 100, and an empty list has an all-zero summary. Overdue and open high-priority counts never exceed the non-completed tasks |
| Stats.SummarizeCountsTaskByTask | frontend/src/pages/TaskStats.jsx:8-20 | a task in front of a list adds one to the total, and one to exactly the counters whose test it passes: its status for the three status counts, a truthy past `dueDate` while open for overdue, high priority while open for high-priority. With the all-zero empty summary this fixes every counter |
| Stats.OverdueIgnoresSnakeCaseDate | frontend/src/pages/TaskStats.jsx:15-18 | tasks without a `dueDate` key are never counted overdue, whatever they hold under `due_date` |
| Stats.BadgeAndPanelReadDifferentDueDates | frontend/src/pages/TaskStats.jsx:15-18 | an open task as the server sends it (a past `due_date`, no `dueDate`) gets a red overdue badge in the list but is not counted overdue by the panel; with the same date under both keys, and the two date tests agreeing on it, badge and count agree |
| Profile.InitialsAreWordStarts | frontend/src/pages/UseraProfile.jsx:21-27 | the initials are the upper-cased first letters of the space-separated words, in order; the empty pieces from repeated spaces add nothing, and there are never more initials than characters |
| Profile.ChangePassword | frontend/src/pages/UseraProfile.jsx:47-74 | confirmation is checked first, then length (at least 6 UTF-16 code units, as `.length` counts). A rejected password leaves storage as it was and shows its message. An accepted one rewrites only the stored user list and reports success; if the stored list cannot be read, the message stays cleared and loading never ends |
| Profile.AstralCharactersCountTwice | frontend/src/pages/UseraProfile.jsx:56 | the length rule counts code units: three emoji make an acceptable password, three letters do not |
| Profile.ChangePasswordTouchesOnlyOwner | frontend/src/pages/UseraProfile.jsx:63-66 | an accepted change sets the password of exactly the users with the session id, and changes nothing else about any user |
| Profile.CurrentPasswordIgnored | frontend/src/pages/UseraProfile.jsx:47-74 | the outcome does not depend on the current-password field |
| Profile.UpdateProfile | frontend/src/pages/UseraProfile.jsx:29-45 | the update writes only the user list and the session user; the stored session user gets the new name and email, and success is reported |
| Profile.UpdateProfileTouchesOnlyOwner | frontend/src/pages/UseraProfile.jsx:34-37 | the name and email of exactly the users with the session id change; their other fields, and every other user, stay the same |
| ApiModels.CreateUser | backend/api/models.py:21-30 | the username is checked before the email, and a missing or empty value raises its message; success means both are present, with the normalised email and the extra fields kept |
| ApiModels.CreateSuperuser | backend/api/models.py:32-41 | both flags default to True, and an explicit non-True flag is refused (the staff flag first); a created superuser has both flags True and every given field |
| ApiModels.SuperuserGoesThroughCreateUser | backend/api/models.py:41 | with acceptable flags, the outcome is exactly `create_user`'s with both flags defaulted to True: the same row (username, normalised email, password, extra fields) or the same error |
| ApiModels.SuperuserFlagsCheckedFirst | backend/api/models.py:36-37 | an explicit `is_staff=False`, or `1`, is reported even when the username is missing |
| ApiModels.ChoiceKeysFitColumns | backend/api/models.py:6-16 | the stored choice keys are exactly the client's literals, and each fits its column width |
| ApiModels.TitleOnlyTaskGetsLabels | backend/api/models.py:62-63 | as written, a task created with only a title stores priority "Medium" and status "To Do", neither of which is a choice key |
| ApiModels.NewRowAsWritten | backend/api/models.py:59-64 | as written: given fields are stored as given, a missing description is empty, and a missing priority or status takes the declared default 'Medium' or 'To Do' |
| ApiModels.NewRow | backend/api/models.py:59-64 | corrected: every given field is stored as given, a missing description is empty, and a missing priority or status becomes the choice key 'medium' or 'todo' |
| ApiModels.NewRowDiffersOnlyInDefaults | backend/api/models.py:62-63 | the corrected row equals the row as written exactly when the create gives both a priority and a status |
| ApiViews.OnlyAuthEndpointsAreOpen | backend/api/views.py:14-60 | register and login admit anyone; the task and profile views admit exactly authenticated requesters |
| ApiViews.LoginPost | backend/api/views.py:22-34 | the `username` and `password` fields of the body (`None` when absent) go to `authenticate`; login succeeds exactly when authentication does, and returns the user and the token pair; otherwise it answers 400 with "Invalid Credentials" |
| ApiViews.LoginBodyReachesAuthenticate | backend/api/views.py:22-25 | the body the client's `loginUser` posts reaches `authenticate` as exactly the client's username and password, so the login succeeds exactly when those credentials authenticate |
| ApiViews.ListTasks | backend/api/views.py:37-42 | the list refuses exactly the requesters its `IsAuthenticated` permission does not admit; otherwise the list holds exactly the requester's tasks, with their rows |
| ApiViews.CreateTask | backend/api/views.py:39-45 | the create refuses exactly the requesters its `IsAuthenticated` permission does not admit; otherwise the new row, built with the declared defaults, is owned by the requester, and every existing row is kept |
| ApiViews.RetrieveTask | backend/api/views.py:48-53 | retrieval refuses exactly the requesters the detail view's permission does not admit, and succeeds exactly for a task the requester owns; any other id answers NotFound |
| ApiViews.UpdateTask | backend/api/views.py:48-53 | an update refuses exactly the requesters the detail view's permission does not admit, and succeeds exactly on an owned task, replacing its row and keeping its owner |
| ApiViews.DeleteTask | backend/api/views.py:48-53 | a delete refuses exactly the requesters the detail view's permission does not admit, and succeeds exactly on an owned task and removes only that task |
| ApiViews.OwnershipIsolation | backend/api/views.py:41-53 | no create, update or delete by one user changes another user's row; deleting a foreign or missing id answers NotFound |
| ApiViews.CreatedTaskIsListedForOwnerOnly | backend/api/views.py:41-45 | a created task appears in its creator's list, with its row, and in nobody else's |
| ApiViews.TitleOnlyCreateListsLabels | backend/api/views.py:44-45 | a title-only create is stored, and listed back to its owner, with a priority and status outside the choice lists |
| ApiViews.ProfileGet | backend/api/views.py:55-60 | the profile view refuses exactly the requesters its `IsAuthenticated` permission does not admit, and returns the requester |
| ApiViews.ProfileAgreesWithLogin | backend/api/views.py:22-60 | the profile view refuses exactly the requesters the task list refuses, and returns to a user the login accepted that same user |

## Left out

- **Rendering.** JSX rendering, styling and the React state machinery are left out. Handlers are functions from the old state and the awaited reply to the new state. `App.Render` keeps only the choice of screen.
- **The network.** Real HTTP, the Django serializers, and JWT signing and checking are left out. Server replies are an oracle, and `LoginPost` takes `authenticate` and the token pair as parameters. The login body `request.data` is a map from field name to string; non-string JSON values in it are not represented.
- **Axios status handling.** Axios resolves only on a 2xx status; a reply is modelled as either success with data or an error status.
- **Dates.** Date parsing and comparison with the current time are parameters: `isPast` in `Stats` and `beforeToday` in `TaskView`. The `toDateString` same-day test in `isOverdue` is folded into `beforeToday`. `formatDate` and `createdAt` are left out because they are display only.
- Stats.CompletionPercent: computes on exact rationals where the source uses a floating-point division and `Math.round`. The two agree unless float rounding moves a ratio across a half.
- **Malformed JSON.** A stored value that is not well-formed JSON is not represented. `App.Restore` returns no user for any value that is not a user. `ReadUsers`/`ReadTasks` treat every value that is not a list as the exception thrown by `JSON.parse`.
- **Concurrency.** `setTimeout` and overlapping requests are left out, including the unused `isRefreshing` flag. The profile handlers are modelled as if their deferred bodies run at once.
- **Server-side user handling.** `normalize_email` is a parameter. Password hashing (`set_password`, the unusable password for `None`) and Django's `authenticate` are not modelled.
- Profile.InitialsAreWordStarts: upper-cases only ASCII letters, whereas `toUpperCase` also maps other scripts. Its `n[0]` is taken as the word's first character, whereas JavaScript takes the first UTF-16 code unit, a lone surrogate for a word that starts outside the Basic Multilingual Plane; a Dafny string cannot hold a lone surrogate.
- **`null` due dates.** A `dueDate` of `null` is not represented (`JSON.stringify` would send it as `null`). The server only ever sends `due_date`, and the form only ever holds a string or `undefined` there.
- **Status badge text.** The status badge's text (`task.status.replace`) is not modelled; it is display only.
- **Form edit path.** The edit path of the task form also sends the update twice: once by `fetch`, then again through `updateTask`. The model shows this for create only (`Dashboard.CreateSubmitPostsTwice`). The corrected `Dashboard.Submit` covers both.
- **Dashboard and form side effects.** The dashboard's mount-time `fetchTasks` effect and the form's and dashboard's modal flags (`setShowTaskForm`, the `editingTask` reset) are left out: they are view state with no bearing on the task list.
- **Registration.** `RegisterView` is modelled only through its permission, since its serializer is not part of this model.
- Api.RegisterRequest: states the body the client posts, but no lemma ties its keys to what `RegisterView` reads, because `RegisterSerializer` is not part of this model.

## Findings

| source | as written | input that shows it | evidently intended | confidence | as-written member | corrected member |
|---|---|---|---|---|---|---|
| frontend/src/context/AppContext.jsx:12 | the refresh is posted through the global `axios`, whose 401 interceptor answers a rejected refresh with another refresh | a stored refresh token, and a refresh endpoint that answers 401 k times: one refresh posts k+1 times | the refresh bypasses the interceptor, so a refresh posts exactly once | not executed | Api.RefreshCascades | Api.FixedRefreshPostsOnce |
| frontend/src/context/AppContext.jsx:12-18 | the nested refresh that a 401 triggers stores its token before the outer refresh retries its own post | a stored refresh token, and replies 401, then a new access token `t`, then 500: the refresh returns null while `t` is stored | a refresh that returns null leaves `access_token` as it was | not executed | Api.RefreshStoresTokenYetFails | Api.FixedRefreshPostsOnce |
| frontend/src/context/AppContext.jsx:32 | the refresh-and-retry interceptor is installed on the global `axios`, but task calls go through `axiosInstance` | any task call whose first reply is 401: it rejects with no refresh attempt | task calls refresh once and retry with the new token | not executed | Api.TaskCallNeverRefreshes | Api.TaskCallRecoversFrom401 |
| frontend/src/pages/TaskDashboard.jsx:184 | the form POSTs the task itself, then `onSubmit` hands the result to `handleCreateTask`, which POSTs it again | a new task with a stored token and two successful replies: two POSTs, and the server holds two copies | the dashboard lists the task the form's request returned | not executed | Dashboard.CreateSubmitPostsTwice | Dashboard.Submit |
| backend/api/models.py:62-63 | the declared defaults 'Medium' and 'To Do' are choice labels, not the stored keys (the server view `ApiViews.CreateTask` stores them) | a task created with only a title: priority "Medium" and status "To Do", outside both choice lists | defaults 'medium' and 'todo' | not executed | ApiViews.TitleOnlyCreateListsLabels | ApiModels.NewRow |

=== FILE: api.dfy ===
/** The client's data-access layer: the token refresh, the two axios
    interceptors and the task endpoints.

    The network is an oracle: `Net.server` lists the replies the server will
    give, one per request, in order, and a request sent after the list is
    exhausted gets no response at all (a transport failure). Every request the
    client sends is appended to `Net.sent`, so the log tells how many requests,
    refreshes and retries one call caused.

    Which interceptor sits on which axios object is a parameter (`Client`), so
    the wiring of the source and the corrected wiring share one definition. */
module Api {
  import opened Wrappers
  import opened Records
  import opened Storage
  import opened Seqs
  import Numerals

  const API_URL := "http://127.0.0.1:8000/api/"
  const REFRESH_URL := API_URL + "auth/token/refresh/"
  const LOGIN_URL := "http://127.0.0.1:8000/api/auth/login/"
  const REGISTER_URL := "http://127.0.0.1:8000/api/auth/register/"
  const TASKS_URL := "http://127.0.0.1:8000/api/tasks/"

  datatype Method = GET | POST | PUT | DELETE

  /** A request body: a JSON object of string fields, or a task object passed on as is. */
  datatype Body = NoBody | Fields(fields: map<string, string>) | TaskBody(task: Task)

  /** A request config: `auth` is the `Authorization` header, `retry` the
      `_retry` flag the response interceptor sets on the config it retries. */
  datatype Request = Request(verb: Method, url: string, body: Body, auth: Option<string>, retry: bool)

  /** `response.data` of a successful reply. */
  datatype Data = AccessData(access: string) | TaskData(task: Task) | TaskListData(tasks: seq<Task>) | NoData

  /** A reply from the server: a 2xx with its data, or an error status. */
  datatype Reply = Ok(data: Data) | HttpError(status: int)

  datatype Net = Net(store: Store, server: seq<Reply>, sent: seq<Request>)

  datatype Failure = StatusError(status: int) | NoResponse

  /** How the promise returned by an axios call settles. */
  datatype Outcome = Resolved(data: Data) | Rejected(failure: Failure)

  datatype Exchange = Exchange(outcome: Outcome, net: Net)

  datatype Refreshed = Refreshed(token: Option<string>, net: Net)

  /** An axios object: whether its request interceptor attaches the bearer
      token, and whether its response interceptor refreshes and retries on 401. */
  datatype Client = Client(bearer: bool, retryOn401: bool)

  /** Through which axios object the refresh request is posted. */
  datatype Wiring = Wiring(refreshVia: Client)

  /** The global `axios`: no request interceptor, the 401 response interceptor. */
  const GLOBAL_AXIOS := Client(false, true)
  /** `axiosInstance`: the bearer request interceptor and no response interceptor. */
  const AXIOS_INSTANCE := Client(true, false)
  /** The source posts the refresh through the global `axios`. */
  const AS_WRITTEN := Wiring(GLOBAL_AXIOS)

  /** An axios object without interceptors. */
  const BARE_AXIOS := Client(false, false)
  /** The task client with both interceptors. */
  const TASK_CLIENT := Client(true, true)
  /** The refresh posted past the response interceptor. */
  const FIXED := Wiring(BARE_AXIOS)

  function RefreshRequest(refresh: string): Request
  {
    Request(POST, REFRESH_URL, Fields(map["refresh" := refresh]), None, false)
  }

  predicate IsRefreshPost(r: Request)
  {
    r.url == REFRESH_URL
  }

  /** The request interceptor of `axiosInstance`: `Authorization` becomes
      `Bearer <token>` exactly when a token is stored; otherwise the config
      passes through untouched. */
  function WithBearer(req: Request, store: Store): (r: Request)
    ensures r.verb == req.verb && r.url == req.url && r.body == req.body && r.retry == req.retry
    ensures GetToken(store, ACCESS_TOKEN).Some? ==> r.auth == Some("Bearer " + GetToken(store, ACCESS_TOKEN).value)
    ensures GetToken(store, ACCESS_TOKEN).None? ==> r == req
  {
    var token := GetToken(store, ACCESS_TOKEN);
    if token.Some? then req.(auth := Some("Bearer " + token.value)) else req
  }

  /** Puts a request on the wire: logs it and consumes the server's next reply. */
  function Send(req: Request, net: Net): (r: (Option<Reply>, Net))
    ensures r.1.store == net.store && r.1.sent == net.sent + [req]
    ensures |net.server| == 0 ==> r.0.None? && r.1.server == net.server
    ensures |net.server| > 0 ==> r.0 == Some(net.server[0]) && r.1.server == net.server[1..]
  {
    if |net.server| == 0 then (None, net.(sent := net.sent + [req]))
    else (Some(net.server[0]), net.(server := net.server[1..], sent := net.sent + [req]))
  }

  /** One axios call through client `c`. A 401 on a config without `_retry`, on
      a client that has the response interceptor, marks the config, asks
      `Refresh` for a new token, and on a truthy token re-issues the same config
      with `Bearer <token>`; every other failure is passed back unchanged. */
  function Call(c: Client, w: Wiring, req: Request, net: Net): (r: Exchange)
    ensures |r.net.server| < |net.server| || (|net.server| == 0 && r.net.server == net.server)
    ensures net.sent < r.net.sent
    ensures r.net.store - {ACCESS_TOKEN} == net.store - {ACCESS_TOKEN}
    decreases |net.server|, 0
  {
    var out := if c.bearer then WithBearer(req, net.store) else req;
    var (reply, net1) := Send(out, net);
    if reply.None? then Exchange(Rejected(NoResponse), net1)
    else match reply.value
      case Ok(d) => Exchange(Resolved(d), net1)
      case HttpError(status) =>
        if c.retryOn401 && status == 401 && !out.retry then
          var refreshed := Refresh(w, net1);
          if refreshed.token.Some? && refreshed.token.value != "" then
            var again := Call(c, w, out.(auth := Some("Bearer " + refreshed.token.value), retry := true), refreshed.net);
            Exchange(again.outcome, again.net)
          else Exchange(Rejected(StatusError(status)), refreshed.net)
        else Exchange(Rejected(StatusError(status)), net1)
  }

  /** `refreshToken()`: without a stored refresh token it answers `None` and
      sends nothing; otherwise it posts the token, stores `res.data.access` under
      `access_token` and returns it, or answers `None` when the post rejects.
      A reply without an `access` field stores the string "undefined", as
      `localStorage.setItem` does with `undefined`. */
  function Refresh(w: Wiring, net: Net): (r: Refreshed)
    ensures |r.net.server| <= |net.server|
    ensures net.sent <= r.net.sent
    ensures r.net.store - {ACCESS_TOKEN} == net.store - {ACCESS_TOKEN}
    decreases |net.server|, 1
  {
    var refresh := GetToken(net.store, REFRESH_TOKEN);
    if refresh.None? then Refreshed(None, net)
    else
      var ex := Call(w.refreshVia, w, RefreshRequest(refresh.value), net);
      match ex.outcome
      case Resolved(d) =>
        if d.AccessData? then
          Refreshed(Some(d.access), ex.net.(store := ex.net.store[ACCESS_TOKEN := Text(d.access)]))
        else
          Refreshed(None, ex.net.(store := ex.net.store[ACCESS_TOKEN := Text("undefined")]))
      case Rejected(_) => Refreshed(None, ex.net)
  }

  // ---------------------------------------------------------------------------
  // Task endpoints

  datatype TaskOp = ListTasks | CreateTask(payload: Body) | UpdateTask(id: nat, payload: Body) | DeleteTask(id: nat)

  /** `http://127.0.0.1:8000/api/tasks/${id}/` */
  function TaskUrl(id: nat): string
  {
    TASKS_URL + Numerals.NatToString(id) + "/"
  }

  function TaskRequest(op: TaskOp): (r: Request)
    ensures r.auth.None? && !r.retry
  {
    match op
    case ListTasks => Request(GET, TASKS_URL, NoBody, None, false)
    case CreateTask(p) => Request(POST, TASKS_URL, p, None, false)
    case UpdateTask(id, p) => Request(PUT, TaskUrl(id), p, None, false)
    case DeleteTask(id) => Request(DELETE, TaskUrl(id), NoBody, None, false)
  }

  /** Update and delete address the same item URL; list and create address the
      collection URL; different ids address different items, and no item URL is
      the collection URL. */
  lemma TaskUrlsAgree(a: nat, b: nat, p: Body)
    ensures TaskRequest(UpdateTask(a, p)).url == TaskRequest(DeleteTask(a)).url == TaskUrl(a)
    ensures TaskRequest(ListTasks).url == TaskRequest(CreateTask(p)).url == TASKS_URL
    ensures TaskUrl(a) == TaskUrl(b) ==> a == b
    ensures TaskUrl(a) != TASKS_URL
  {
    if TaskUrl(a) == TaskUrl(b) {
      var n := |TASKS_URL|;
      assert Numerals.NatToString(a) == TaskUrl(a)[n..|TaskUrl(a)| - 1];
      assert Numerals.NatToString(b) == TaskUrl(b)[n..|TaskUrl(b)| - 1];
      Numerals.NatToStringInjective(a, b);
    }
    assert |TaskUrl(a)| > |TASKS_URL|;
  }

  /** No task request goes to the refresh endpoint. */
  lemma TaskRequestIsNotRefresh(op: TaskOp)
    ensures !IsRefreshPost(TaskRequest(op))
  {
    assert REFRESH_URL[26] == 'a';
    assert TASKS_URL[26] == 't';
    if op.UpdateTask? || op.DeleteTask? {
      assert TaskUrl(op.id)[26] == 't';
    }
  }

  /** A task call as the source wires it: `axiosInstance`, refresh through `axios`. */
  function PerformAsWritten(op: TaskOp, net: Net): Exchange
  {
    Call(AXIOS_INSTANCE, AS_WRITTEN, TaskRequest(op), net)
  }

  /** A task call through a client that carries both interceptors, with the
      refresh posted past the response interceptor. */
  function Perform(op: TaskOp, net: Net): Exchange
  {
    Call(TASK_CLIENT, FIXED, TaskRequest(op), net)
  }

  /** `loginUser` and `registerUser` post unauthenticated through the global `axios`. */
  function LoginRequest(username: string, password: string): (r: Request)
    ensures r.verb == POST && r.url == LOGIN_URL && r.auth.None?
    ensures r.body.Fields? && r.body.fields.Keys == {"username", "password"}
    ensures r.body.fields["username"] == username && r.body.fields["password"] == password
  {
    Request(POST, LOGIN_URL, Fields(map["username" := username, "password" := password]), None, false)
  }

  function RegisterRequest(username: string, email: string, password: string): (r: Request)
    ensures r.verb == POST && r.url == REGISTER_URL && r.auth.None?
    ensures r.body.Fields? && r.body.fields.Keys == {"username", "email", "password"}
    ensures r.body.fields["username"] == username && r.body.fields["email"] == email
    ensures r.body.fields["password"] == password
  {
    Request(POST, REGISTER_URL, Fields(map["username" := username, "email" := email, "password" := password]), None, false)
  }

  // ---------------------------------------------------------------------------
  // The refresh protocol

  /** Without a stored refresh token the refresh answers `None`, sends nothing
      and changes nothing, whatever the wiring. */
  lemma RefreshWithoutTokenIsSilent(w: Wiring, net: Net)
    requires GetToken(net.store, REFRESH_TOKEN).None?
    ensures Refresh(w, net) == Refreshed(None, net)
  {
  }

  /** With the refresh posted past the response interceptor, a refresh sends
      exactly one request. A successful reply stores its access token under
      `access_token` and returns that same token, and one without an `access`
      field stores "undefined" and returns `None`; a rejected post returns
      `None` and leaves the store, `access_token` included, as it was. */
  lemma FixedRefreshPostsOnce(net: Net)
    requires GetToken(net.store, REFRESH_TOKEN).Some?
    ensures var r := Refresh(FIXED, net);
      && r.net.sent == net.sent + [RefreshRequest(GetToken(net.store, REFRESH_TOKEN).value)]
      && (|net.server| > 0 && net.server[0].Ok? && net.server[0].data.AccessData? ==>
            r.token == Some(net.server[0].data.access) &&
            r.net.store == net.store[ACCESS_TOKEN := Text(net.server[0].data.access)])
      && (|net.server| > 0 && net.server[0].Ok? && !net.server[0].data.AccessData? ==>
            r.token.None? && r.net.store == net.store[ACCESS_TOKEN := Text("undefined")])
      && (|net.server| == 0 || net.server[0].HttpError? ==>
            r.token.None? && r.net.store == net.store)
  {
  }

  /** As written, the refresh is posted through the global `axios`, whose
      response interceptor answers a 401 from the refresh endpoint with another
      refresh. A server that rejects the refresh token `k` times draws `k + 1`
      refresh posts out of one refresh: the number of refreshes has no bound. */
  lemma {:induction false} RefreshCascades(net: Net, k: nat)
    requires GetToken(net.store, REFRESH_TOKEN).Some?
    requires net.server == Repeat(HttpError(401), k)
    decreases k
    ensures Refresh(AS_WRITTEN, net) ==
      Refreshed(None, net.(server := [], sent := net.sent + Repeat(RefreshRequest(GetToken(net.store, REFRESH_TOKEN).value), k + 1)))
  {
    var rr := RefreshRequest(GetToken(net.store, REFRESH_TOKEN).value);
    if k > 0 {
      var net1 := net.(server := net.server[1..], sent := net.sent + [rr]);
      assert net.server[1..] == Repeat(HttpError(401), k - 1);
      RefreshCascades(net1, k - 1);
      assert net1.sent + Repeat(rr, k) == net.sent + Repeat(rr, k + 1);
    }
  }

  /** Apart from a 401 to its first post, the refresh as written behaves
      exactly like the corrected one: the same result, store and log. */
  lemma AsWrittenRefreshAgreesUnless401(net: Net)
    requires |net.server| == 0 || net.server[0] != HttpError(401)
    ensures Refresh(AS_WRITTEN, net) == Refresh(FIXED, net)
  {
  }

  /** As written, a refresh can store a new access token and still report
      failure: the first post draws a 401, the nested refresh stores `t`, and
      the retried refresh post then fails, so the outer refresh returns null
      with `t` already under `access_token`. */
  lemma RefreshStoresTokenYetFails(net: Net, t: string)
    requires GetToken(net.store, REFRESH_TOKEN).Some? && t != ""
    requires net.server == [HttpError(401), Ok(AccessData(t)), HttpError(500)]
    ensures var r := Refresh(AS_WRITTEN, net);
      var rr := RefreshRequest(GetToken(net.store, REFRESH_TOKEN).value);
      && r.token.None?
      && r.net.store == net.store[ACCESS_TOKEN := Text(t)]
      && r.net.sent == net.sent + [rr, rr, rr.(auth := Some("Bearer " + t), retry := true)]
  {
    var rr := RefreshRequest(GetToken(net.store, REFRESH_TOKEN).value);
    var stored := net.store[ACCESS_TOKEN := Text(t)];
    var retried := rr.(auth := Some("Bearer " + t), retry := true);
    // the first post draws the 401
    var net1 := net.(server := [Ok(AccessData(t)), HttpError(500)], sent := net.sent + [rr]);
    assert Send(rr, net) == (Some(HttpError(401)), net1);
    // the nested refresh succeeds and stores `t`
    var net2 := net1.(server := [HttpError(500)], sent := net1.sent + [rr]);
    assert Send(rr, net1) == (Some(Ok(AccessData(t))), net2);
    assert Call(GLOBAL_AXIOS, AS_WRITTEN, rr, net1) == Exchange(Resolved(AccessData(t)), net2);
    var inner := Refresh(AS_WRITTEN, net1);
    assert inner == Refreshed(Some(t), net2.(store := stored));
    // the retried post fails with 500
    var net3 := net2.(store := stored, server := [], sent := net2.sent + [retried]);
    assert Send(retried, net2.(store := stored)) == (Some(HttpError(500)), net3);
    assert Call(GLOBAL_AXIOS, AS_WRITTEN, retried, net2.(store := stored)) == Exchange(Rejected(StatusError(500)), net3);
    assert Call(GLOBAL_AXIOS, AS_WRITTEN, rr, net) == Exchange(Rejected(StatusError(500)), net3);
  }

  // ---------------------------------------------------------------------------
  // The task calls

  /** A config that already carries `_retry` is sent once and settles with its
      own reply: it never refreshes again. */
  lemma RetriedCallSendsOnce(c: Client, w: Wiring, req: Request, net: Net)
    requires req.retry
    ensures var r := Call(c, w, req, net);
      && r.net.sent == net.sent + [if c.bearer then WithBearer(req, net.store) else req]
      && r.net.store == net.store
      && (|net.server| == 0 ==> r.outcome == Rejected(NoResponse))
      && (|net.server| > 0 && net.server[0].Ok? ==> r.outcome == Resolved(net.server[0].data))
      && (|net.server| > 0 && net.server[0].HttpError? ==> r.outcome == Rejected(StatusError(net.server[0].status)))
  {
  }

  /** As written, task calls go through `axiosInstance`, which has no response
      interceptor: a task call sends exactly one request, and a 401 reaches the
      caller without any refresh. */
  lemma TaskCallNeverRefreshes(op: TaskOp, net: Net)
    ensures var r := PerformAsWritten(op, net);
      && r.net.sent == net.sent + [WithBearer(TaskRequest(op), net.store)]
      && r.net.store == net.store
      && (|net.server| > 0 && net.server[0] == HttpError(401) ==> r.outcome == Rejected(StatusError(401)))
  {
  }

  /** Every task call carries `Bearer <token>` for the stored access token. */
  lemma TaskCallCarriesBearer(op: TaskOp, net: Net)
    requires GetToken(net.store, ACCESS_TOKEN).Some?
    ensures var r := Perform(op, net);
      |r.net.sent| > |net.sent| &&
      r.net.sent[|net.sent|] == TaskRequest(op).(auth := Some("Bearer " + GetToken(net.store, ACCESS_TOKEN).value))
  {
    var r := Perform(op, net);
    var first := WithBearer(TaskRequest(op), net.store);
    assert r.net.sent[..|net.sent| + 1] == net.sent + [first];
  }

  /** With both interceptors on the task client and the refresh posted past the
      response interceptor, one task call sends at most three requests (the
      call, one refresh, one retry) and at most one of them is a refresh. */
  lemma TaskCallRefreshesAtMostOnce(op: TaskOp, net: Net)
    ensures var issued := Perform(op, net).net.sent[|net.sent|..];
      1 <= |issued| <= 3 && |Filter(issued, IsRefreshPost)| <= 1
  {
    var req := TaskRequest(op);
    TaskRequestIsNotRefresh(op);
    var out := WithBearer(req, net.store);
    var (reply, net1) := Send(out, net);
    var r := Perform(op, net);
    if reply.Some? && reply.value == HttpError(401) {
      var refreshed := Refresh(FIXED, net1);
      var mid := refreshed.net.sent[|net1.sent|..];
      var refresh := GetToken(net1.store, REFRESH_TOKEN);
      if refresh.Some? {
        FixedRefreshPostsOnce(net1);
        assert mid == [RefreshRequest(refresh.value)];
      } else {
        assert mid == [];
      }
      if refreshed.token.Some? && refreshed.token.value != "" {
        var retried := out.(auth := Some("Bearer " + refreshed.token.value), retry := true);
        RetriedCallSendsOnce(TASK_CLIENT, FIXED, retried, refreshed.net);
        var last := WithBearer(retried, refreshed.net.store);
        assert r.net.sent == net.sent + [out] + mid + [last];
        assert r.net.sent[|net.sent|..] == [out] + mid + [last];
        FilterAppend([out] + mid, [last], IsRefreshPost);
        FilterAppend([out], mid, IsRefreshPost);
      } else {
        assert r.net.sent == net.sent + [out] + mid;
        assert r.net.sent[|net.sent|..] == [out] + mid;
        FilterAppend([out], mid, IsRefreshPost);
      }
    } else {
      assert r.net.sent[|net.sent|..] == [out];
    }
  }

  /** A reply other than a 401 settles the task call at once: one request, the
      reply's data or status handed back, the store untouched. */
  lemma TaskCallPassesOtherReplies(op: TaskOp, net: Net)
    requires |net.server| > 0 && net.server[0] != HttpError(401)
    ensures var r := Perform(op, net);
      && r.net.sent == net.sent + [WithBearer(TaskRequest(op), net.store)]
      && r.net.store == net.store
      && (net.server[0].Ok? ==> r.outcome == Resolved(net.server[0].data))
      && (net.server[0].HttpError? ==> r.outcome == Rejected(StatusError(net.server[0].status)))
  {
  }

  /** A 401 whose refresh yields no truthy token — no refresh token stored, no
      reply to the refresh post, a rejected post, or a reply without a
      non-empty `access` — is handed back as the original 401 and the request
      is not retried: the log holds the call and at most the one refresh post.
      The store changes only when the refresh post resolved, which stores its
      `access` (the string "undefined" when the reply has none). */
  lemma TaskCallRejectsWhenRefreshFails(op: TaskOp, net: Net)
    requires |net.server| > 0 && net.server[0] == HttpError(401)
    requires GetToken(net.store, REFRESH_TOKEN).None? || |net.server| == 1 ||
             !(net.server[1].Ok? && net.server[1].data.AccessData? && net.server[1].data.access != "")
    ensures var r := Perform(op, net);
      var refresh := GetToken(net.store, REFRESH_TOKEN);
      && r.outcome == Rejected(StatusError(401))
      && r.net.sent == net.sent + [WithBearer(TaskRequest(op), net.store)]
                                + (if refresh.Some? then [RefreshRequest(refresh.value)] else [])
      && (refresh.None? || |net.server| == 1 || net.server[1].HttpError? ==> r.net.store == net.store)
      && (refresh.Some? && |net.server| > 1 && net.server[1].Ok? ==>
            r.net.store == net.store[ACCESS_TOKEN := Text(if net.server[1].data.AccessData?
                                                          then net.server[1].data.access else "undefined")])
  {
    var out := WithBearer(TaskRequest(op), net.store);
    var (reply, net1) := Send(out, net);
    assert net1.server == net.server[1..] && net1.store == net.store && net1.sent == net.sent + [out];
    var refreshed := Refresh(FIXED, net1);
    var refresh := GetToken(net.store, REFRESH_TOKEN);
    if refresh.Some? {
      FixedRefreshPostsOnce(net1);
      assert refreshed.net.sent == net.sent + [out] + [RefreshRequest(refresh.value)];
    } else {
      assert refreshed == Refreshed(None, net1);
    }
    assert !(refreshed.token.Some? && refreshed.token.value != "");
    assert Perform(op, net) == Exchange(Rejected(StatusError(401)), refreshed.net);
  }

  /** The recovery the interceptor exists for: a 401, a successful refresh to a
      non-empty token `t`, and the same request re-issued with `Bearer t` and
      `_retry` set; the new token is stored and the retry's reply settles the call. */
  lemma TaskCallRecoversFrom401(op: TaskOp, net: Net, t: string)
    requires GetToken(net.store, REFRESH_TOKEN).Some?
    requires |net.server| >= 3 && net.server[0] == HttpError(401) && net.server[1] == Ok(AccessData(t)) && t != ""
    ensures var r := Perform(op, net);
      var first := WithBearer(TaskRequest(op), net.store);
      && r.net.sent == net.sent + [first,
                                   RefreshRequest(GetToken(net.store, REFRESH_TOKEN).value),
                                   first.(auth := Some("Bearer " + t), retry := true)]
      && r.net.store == net.store[ACCESS_TOKEN := Text(t)]
      && (net.server[2].Ok? ==> r.outcome == Resolved(net.server[2].data))
      && (net.server[2].HttpError? ==> r.outcome == Rejected(StatusError(net.server[2].status)))
  {
    var first := WithBearer(TaskRequest(op), net.store);
    var (reply, net1) := Send(first, net);
    FixedRefreshPostsOnce(net1);
    var refreshed := Refresh(FIXED, net1);
    assert net1.server == net.server[1..] && net1.store == net.store;
    assert refreshed.token == Some(t);
    assert refreshed.net.store == net.store[ACCESS_TOKEN := Text(t)];
    var retried := first.(auth := Some("Bearer " + t), retry := true);
    assert GetToken(refreshed.net.store, ACCESS_TOKEN) == Some(t);
    assert WithBearer(retried, refreshed.net.store) == retried;
    var again := Call(TASK_CLIENT, FIXED, retried, refreshed.net);
    assert refreshed.net.server == net.server[2..];
    assert Perform(op, net) == again;
  }
}

=== FILE: api_models.dfy ===
/** The server's data model: the user manager's validation, the choice lists
    and the task columns' defaults and widths. */
module ApiModels {
  import opened Wrappers

  /** A Python value passed as a keyword argument. `is True` holds of the
      boolean `True` only, not of `1` or of a non-empty string. */
  datatype PyValue = PyBool(b: bool) | PyInt(i: int) | PyStr(s: string) | PyNone

  type ExtraFields = map<string, PyValue>

  /** A user row as `create_user` saves it. The password is kept as given:
      hashing (and the unusable password set for `None`) is not modelled. */
  datatype UserRow = UserRow(username: string, email: string, password: Option<string>, extra: ExtraFields)

  const USERNAME_REQUIRED := "The Username is required"
  const EMAIL_REQUIRED := "The Email is required"
  const STAFF_REQUIRED := "Superuser must have is_staff=True."
  const SUPERUSER_REQUIRED := "Superuser must have is_superuser=True."

  /** Python's `not value` for an optional string argument. */
  predicate Blank(value: Option<string>)
  {
    value.None? || value.value == ""
  }

  /** `UserManager.create_user`. `normalize` stands for `normalize_email`. */
  function CreateUser(username: Option<string>, email: Option<string>, password: Option<string>,
                      extra: ExtraFields, normalize: string -> string): (r: Result<UserRow, string>)
    ensures Blank(username) ==> r == Failure(USERNAME_REQUIRED)
    ensures !Blank(username) && Blank(email) ==> r == Failure(EMAIL_REQUIRED)
    ensures r.Success? <==> !Blank(username) && !Blank(email)
    ensures r.Success? ==> r.value == UserRow(username.value, normalize(email.value), password, extra)
  {
    if Blank(username) then Failure(USERNAME_REQUIRED)
    else if Blank(email) then Failure(EMAIL_REQUIRED)
    else Success(UserRow(username.value, normalize(email.value), password, extra))
  }

  /** `extra_fields.setdefault(key, True)` */
  function SetDefaultTrue(extra: ExtraFields, key: string): (r: ExtraFields)
    ensures key in r
    ensures key in extra ==> r == extra
    ensures key !in extra ==> r == extra[key := PyBool(true)]
  {
    if key in extra then extra else extra[key := PyBool(true)]
  }

  /** `UserManager.create_superuser`: both flags default to `True`, an explicit
      value other than `True` is refused (the staff flag first), and the rest is
      `create_user`. */
  function CreateSuperuser(username: Option<string>, email: Option<string>, password: Option<string>,
                           extra: ExtraFields, normalize: string -> string): (r: Result<UserRow, string>)
    ensures "is_staff" in extra && extra["is_staff"] != PyBool(true) ==> r == Failure(STAFF_REQUIRED)
    ensures (("is_staff" !in extra || extra["is_staff"] == PyBool(true)) &&
             "is_superuser" in extra && extra["is_superuser"] != PyBool(true)) ==> r == Failure(SUPERUSER_REQUIRED)
    ensures r.Success? ==> "is_staff" in r.value.extra && "is_superuser" in r.value.extra
    ensures r.Success? ==> r.value.extra["is_staff"] == PyBool(true) && r.value.extra["is_superuser"] == PyBool(true)
    ensures r.Success? ==> forall k :: k in extra ==> k in r.value.extra && r.value.extra[k] == extra[k]
  {
    var withStaff := SetDefaultTrue(extra, "is_staff");
    var withBoth := SetDefaultTrue(withStaff, "is_superuser");
    if withBoth["is_staff"] != PyBool(true) then Failure(STAFF_REQUIRED)
    else if withBoth["is_superuser"] != PyBool(true) then Failure(SUPERUSER_REQUIRED)
    else CreateUser(username, email, password, withBoth, normalize)
  }

  /** With acceptable flags, a superuser is created exactly when `create_user`
      would create the user: the username and email requirements, and their
      order, carry over. With no flags given, the row has both set. */
  lemma SuperuserGoesThroughCreateUser(username: Option<string>, email: Option<string>, password: Option<string>,
                                       extra: ExtraFields, normalize: string -> string)
    requires "is_staff" !in extra || extra["is_staff"] == PyBool(true)
    requires "is_superuser" !in extra || extra["is_superuser"] == PyBool(true)
    ensures var r := CreateSuperuser(username, email, password, extra, normalize);
      && (r.Success? <==> CreateUser(username, email, password, extra, normalize).Success?)
      && (r.Failure? ==> r == CreateUser(username, email, password, extra, normalize))
      && (r.Success? ==> r.value.username == username.value)
      && r == CreateUser(username, email, password, SetDefaultTrue(SetDefaultTrue(extra, "is_staff"), "is_superuser"), normalize)
  {
  }

  /** The flag check runs first: an explicit `is_staff=False` is reported even
      when the username is missing too. */
  lemma SuperuserFlagsCheckedFirst(email: Option<string>, password: Option<string>, normalize: string -> string)
    ensures CreateSuperuser(None, email, password, map["is_staff" := PyBool(false)], normalize) == Failure(STAFF_REQUIRED)
    ensures CreateSuperuser(None, email, password, map["is_staff" := PyInt(1)], normalize) == Failure(STAFF_REQUIRED)
  {
  }

  // ---------------------------------------------------------------------------
  // Choices and task columns

  const PRIORITY_CHOICES: seq<(string, string)> := [("low", "Low"), ("medium", "Medium"), ("high", "High")]
  const STATUS_CHOICES: seq<(string, string)> := [("todo", "To Do"), ("in-progress", "In Progress"), ("completed", "Completed")]

  const PRIORITY_MAX_LENGTH := 10
  const STATUS_MAX_LENGTH := 15

  /** The defaults the `Task` model declares. */
  const DECLARED_PRIORITY_DEFAULT := "Medium"
  const DECLARED_STATUS_DEFAULT := "To Do"

  /** The stored values of a choice list (the first components). */
  function Keys(choices: seq<(string, string)>): (r: set<string>)
    ensures forall i :: 0 <= i < |choices| ==> choices[i].0 in r
    ensures forall k :: k in r ==> exists i :: 0 <= i < |choices| && choices[i].0 == k
  {
    set i | 0 <= i < |choices| :: choices[i].0
  }

  /** The labels shown for a choice list (the second components). */
  function Labels(choices: seq<(string, string)>): set<string>
  {
    set i | 0 <= i < |choices| :: choices[i].1
  }

  /** The stored keys are exactly the client's literals, and each fits its column. */
  lemma ChoiceKeysFitColumns()
    ensures Keys(PRIORITY_CHOICES) == {"low", "medium", "high"}
    ensures Keys(STATUS_CHOICES) == {"todo", "in-progress", "completed"}
    ensures forall k :: k in Keys(PRIORITY_CHOICES) ==> |k| <= PRIORITY_MAX_LENGTH
    ensures forall k :: k in Keys(STATUS_CHOICES) ==> |k| <= STATUS_MAX_LENGTH
  {
    assert PRIORITY_CHOICES[0].0 == "low" && PRIORITY_CHOICES[1].0 == "medium" && PRIORITY_CHOICES[2].0 == "high";
    assert STATUS_CHOICES[0].0 == "todo" && STATUS_CHOICES[1].0 == "in-progress" && STATUS_CHOICES[2].0 == "completed";
  }

  /** The declared defaults are labels, not keys: a task saved with them holds a
      priority and a status outside the choice lists. */
  lemma DeclaredDefaultsAreLabels()
    ensures DECLARED_PRIORITY_DEFAULT !in Keys(PRIORITY_CHOICES) && DECLARED_PRIORITY_DEFAULT in Labels(PRIORITY_CHOICES)
    ensures DECLARED_STATUS_DEFAULT !in Keys(STATUS_CHOICES) && DECLARED_STATUS_DEFAULT in Labels(STATUS_CHOICES)
  {
    ChoiceKeysFitColumns();
    assert PRIORITY_CHOICES[1].1 == DECLARED_PRIORITY_DEFAULT;
    assert STATUS_CHOICES[0].1 == DECLARED_STATUS_DEFAULT;
  }

  /** The task fields a create request may leave out. */
  datatype TaskInput = TaskInput(title: string, description: Option<string>, priority: Option<string>,
                                 status: Option<string>, dueDate: Option<string>)

  datatype TaskRow = TaskRow(title: string, description: string, priority: string, status: string, dueDate: Option<string>)

  /** The row `perform_create` stores: the given fields, and for a missing
      priority or status the default the model declares. */
  function NewRowAsWritten(input: TaskInput): (r: TaskRow)
    ensures r.title == input.title && r.dueDate == input.dueDate
    ensures input.description.Some? ==> r.description == input.description.value
    ensures input.description.None? ==> r.description == ""
    ensures input.priority.Some? ==> r.priority == input.priority.value
    ensures input.priority.None? ==> r.priority == DECLARED_PRIORITY_DEFAULT
    ensures input.status.Some? ==> r.status == input.status.value
    ensures input.status.None? ==> r.status == DECLARED_STATUS_DEFAULT
  {
    TaskRow(input.title,
            if input.description.Some? then input.description.value else "",
            if input.priority.Some? then input.priority.value else DECLARED_PRIORITY_DEFAULT,
            if input.status.Some? then input.status.value else DECLARED_STATUS_DEFAULT,
            input.dueDate)
  }

  /** A task created with only a title is stored with priority "Medium" and
      status "To Do", neither of which is a choice key. */
  lemma TitleOnlyTaskGetsLabels(title: string)
    ensures var row := NewRowAsWritten(TaskInput(title, None, None, None, None));
      row.priority !in Keys(PRIORITY_CHOICES) && row.status !in Keys(STATUS_CHOICES)
  {
    DeclaredDefaultsAreLabels();
  }

  const PRIORITY_DEFAULT := "medium"
  const STATUS_DEFAULT := "todo"

  /** The row a create stores, with the choice keys as defaults: every given
      field is kept as given, and a missing priority or status becomes a
      choice key. */
  function NewRow(input: TaskInput): (r: TaskRow)
    ensures r.title == input.title && r.dueDate == input.dueDate
    ensures input.description.Some? ==> r.description == input.description.value
    ensures input.description.None? ==> r.description == ""
    ensures input.priority.Some? ==> r.priority == input.priority.value
    ensures input.status.Some? ==> r.status == input.status.value
    ensures input.priority.None? ==> r.priority in Keys(PRIORITY_CHOICES) && r.priority == PRIORITY_DEFAULT
    ensures input.status.None? ==> r.status in Keys(STATUS_CHOICES) && r.status == STATUS_DEFAULT
    ensures input.priority.Some? && input.priority.value in Keys(PRIORITY_CHOICES) ==> r.priority in Keys(PRIORITY_CHOICES)
    ensures input.status.Some? && input.status.value in Keys(STATUS_CHOICES) ==> r.status in Keys(STATUS_CHOICES)
  {
    ChoiceKeysFitColumns();
    TaskRow(input.title,
            if input.description.Some? then input.description.value else "",
            if input.priority.Some? then input.priority.value else PRIORITY_DEFAULT,
            if input.status.Some? then input.status.value else STATUS_DEFAULT,
            input.dueDate)
  }

  /** The correction touches the defaults only: the corrected row is the row
      as written exactly when the create gives both a priority and a status. */
  lemma NewRowDiffersOnlyInDefaults(input: TaskInput)
    ensures NewRow(input) == NewRowAsWritten(input) <==> input.priority.Some? && input.status.Some?
  {
    if input.priority.None? {
      assert NewRow(input).priority[0] != NewRowAsWritten(input).priority[0];
    } else if input.status.None? {
      assert NewRow(input).status[0] != NewRowAsWritten(input).status[0];
    }
  }
}

=== FILE: api_views.dfy ===
/** The server's views: who may call each endpoint, the login outcome, the
    per-user task queryset behind list, create, retrieve, update and delete,
    and the profile view. The task table is a map from id to row and owner. */
module ApiViews {
  import opened Wrappers
  import opened ApiModels
  import Api

  type UserId = nat

  /** A user as the serializer returns it. */
  datatype ServerUser = ServerUser(id: UserId, username: string, email: string)

  datatype Endpoint = Register | Login | TaskListCreate | TaskDetail | UserProfile

  /** The permission class of each view. */
  datatype Permission = AllowAny | IsAuthenticated

  function PermissionOf(e: Endpoint): Permission
  {
    match e
    case Register => AllowAny
    case Login => AllowAny
    case TaskListCreate => IsAuthenticated
    case TaskDetail => IsAuthenticated
    case UserProfile => IsAuthenticated
  }

  datatype ApiError = NotAuthenticated | NotFound

  /** Whether a request from `requester` (`None` for an anonymous one) gets
      past the view's permission check. */
  predicate Admits(e: Endpoint, requester: Option<ServerUser>)
  {
    PermissionOf(e) == AllowAny || requester.Some?
  }

  /** Registration and login are open to anonymous callers; the task and
      profile views admit exactly the authenticated ones. */
  lemma OnlyAuthEndpointsAreOpen(e: Endpoint, requester: Option<ServerUser>)
    ensures (e == Register || e == Login) ==> Admits(e, requester)
    ensures (e == TaskListCreate || e == TaskDetail || e == UserProfile) ==> (Admits(e, requester) <==> requester.Some?)
  {
  }

  // ---------------------------------------------------------------------------
  // Login

  datatype TokenPair = TokenPair(refresh: string, access: string)

  datatype LoginResponse =
    | LoginOk(user: ServerUser, refresh: string, access: string)
    | LoginError(status: int, error: map<string, string>)

  const INVALID_CREDENTIALS := "Invalid Credentials"

  /** `request.data.get(key)`: the field's value, or `None` when the body
      lacks the key. */
  function Get(data: map<string, string>, key: string): (r: Option<string>)
    ensures r.Some? <==> key in data
    ensures r.Some? ==> r.value == data[key]
  {
    if key in data then Some(data[key]) else None
  }

  /** `LoginView.post` on the request's JSON body `data`. `authenticate` stands
      for Django's `authenticate` and `tokensFor` for `RefreshToken.for_user`
      with its access token. */
  function LoginPost(data: map<string, string>,
                     authenticate: (Option<string>, Option<string>) -> Option<ServerUser>,
                     tokensFor: ServerUser -> TokenPair): (r: LoginResponse)
    ensures var creds := (Get(data, "username"), Get(data, "password"));
      && (r.LoginOk? <==> authenticate(creds.0, creds.1).Some?)
      && (r.LoginOk? ==> r.user == authenticate(creds.0, creds.1).value
                         && r.refresh == tokensFor(r.user).refresh && r.access == tokensFor(r.user).access)
    ensures r.LoginError? ==> r.status == 400 && r.error == map["error" := INVALID_CREDENTIALS]
  {
    var username := Get(data, "username");
    var password := Get(data, "password");
    match authenticate(username, password)
    case Some(user) => LoginOk(user, tokensFor(user).refresh, tokensFor(user).access)
    case None => LoginError(400, map["error" := INVALID_CREDENTIALS])
  }

  /** The client and the server agree on the login body: the body `loginUser`
      posts reaches `authenticate` as exactly the username and password the
      client was given, so the login succeeds exactly when those credentials
      authenticate. */
  lemma LoginBodyReachesAuthenticate(username: string, password: string,
                                     authenticate: (Option<string>, Option<string>) -> Option<ServerUser>,
                                     tokensFor: ServerUser -> TokenPair)
    ensures Api.LoginRequest(username, password).body.Fields?
    ensures var data := Api.LoginRequest(username, password).body.fields;
      && Get(data, "username") == Some(username)
      && Get(data, "password") == Some(password)
      && (LoginPost(data, authenticate, tokensFor).LoginOk? <==> authenticate(Some(username), Some(password)).Some?)
  {
  }

  // ---------------------------------------------------------------------------
  // Tasks

  datatype OwnedRow = OwnedRow(row: TaskRow, owner: UserId)

  type TaskTable = map<nat, OwnedRow>

  /** `Task.objects.filter(user=request.user)` */
  function Queryset(table: TaskTable, user: UserId): (r: TaskTable)
    ensures forall id :: id in r <==> id in table && table[id].owner == user
    ensures forall id :: id in r ==> r[id] == table[id]
  {
    map id | id in table && table[id].owner == user :: table[id]
  }

  /** The list endpoint: the requester's tasks, and only those. */
  function ListTasks(table: TaskTable, requester: Option<ServerUser>): (r: Result<map<nat, TaskRow>, ApiError>)
    ensures r == Failure(NotAuthenticated) <==> !Admits(TaskListCreate, requester)
    ensures requester.None? ==> r == Failure(NotAuthenticated)
    ensures requester.Some? ==> r.Success? && forall id :: id in r.value <==> id in table && table[id].owner == requester.value.id
    ensures requester.Some? ==> forall id :: id in r.value ==> r.value[id] == table[id].row
  {
    if !Admits(TaskListCreate, requester) then Failure(NotAuthenticated)
    else
      var mine := Queryset(table, requester.value.id);
      Success(map id | id in mine :: mine[id].row)
  }

  /** `perform_create`: the new row (its id assigned by the database, so not in
      use yet) is owned by the requester and filled in with the model's
      declared defaults. */
  function CreateTask(table: TaskTable, requester: Option<ServerUser>, newId: nat, input: TaskInput): (r: Result<TaskTable, ApiError>)
    requires newId !in table
    ensures r == Failure(NotAuthenticated) <==> !Admits(TaskListCreate, requester)
    ensures requester.None? ==> r == Failure(NotAuthenticated)
    ensures requester.Some? ==> r.Success? && newId in r.value && r.value[newId].owner == requester.value.id
    ensures requester.Some? ==> r.value[newId].row == NewRowAsWritten(input)
    ensures r.Success? ==> forall id :: id in table ==> id in r.value && r.value[id] == table[id]
  {
    if !Admits(TaskListCreate, requester) then Failure(NotAuthenticated)
    else Success(table[newId := OwnedRow(NewRowAsWritten(input), requester.value.id)])
  }

  /** Retrieve through the detail view: the row, when the requester owns it. */
  function RetrieveTask(table: TaskTable, requester: Option<ServerUser>, id: nat): (r: Result<TaskRow, ApiError>)
    ensures r == Failure(NotAuthenticated) <==> !Admits(TaskDetail, requester)
    ensures requester.None? ==> r == Failure(NotAuthenticated)
    ensures requester.Some? ==> (r.Success? <==> id in table && table[id].owner == requester.value.id)
    ensures r.Success? ==> r.value == table[id].row
    ensures requester.Some? && r.Failure? ==> r.error == NotFound
  {
    if !Admits(TaskDetail, requester) then Failure(NotAuthenticated)
    else
      var u := requester.value;
      var mine := Queryset(table, u.id);
      if id in mine then Success(mine[id].row) else Failure(NotFound)
  }

  /** Update through the detail view: replaces the row of an owned task and
      keeps its owner. */
  function UpdateTask(table: TaskTable, requester: Option<ServerUser>, id: nat, row: TaskRow): (r: Result<TaskTable, ApiError>)
    ensures r == Failure(NotAuthenticated) <==> !Admits(TaskDetail, requester)
    ensures requester.None? ==> r == Failure(NotAuthenticated)
    ensures requester.Some? ==> (r.Success? <==> id in table && table[id].owner == requester.value.id)
    ensures r.Success? ==> r.value == table[id := OwnedRow(row, table[id].owner)]
  {
    if !Admits(TaskDetail, requester) then Failure(NotAuthenticated)
    else
      var u := requester.value;
      var mine := Queryset(table, u.id);
      if id in mine then Success(table[id := OwnedRow(row, u.id)]) else Failure(NotFound)
  }

  /** Delete through the detail view: removes an owned task. */
  function DeleteTask(table: TaskTable, requester: Option<ServerUser>, id: nat): (r: Result<TaskTable, ApiError>)
    ensures r == Failure(NotAuthenticated) <==> !Admits(TaskDetail, requester)
    ensures requester.None? ==> r == Failure(NotAuthenticated)
    ensures requester.Some? ==> (r.Success? <==> id in table && table[id].owner == requester.value.id)
    ensures r.Success? ==> r.value == table - {id}
  {
    if !Admits(TaskDetail, requester) then Failure(NotAuthenticated)
    else
      var u := requester.value;
      var mine := Queryset(table, u.id);
      if id in mine then Success(table - {id}) else Failure(NotFound)
  }

  /** No request of one user reaches another user's task: after any create,
      update or delete by `u`, every row owned by someone else is exactly as
      it was, and deleting a missing or foreign id answers NotFound. */
  lemma OwnershipIsolation(table: TaskTable, u: ServerUser, id: nat, row: TaskRow, newId: nat, input: TaskInput)
    requires newId !in table
    ensures var r := UpdateTask(table, Some(u), id, row);
      r.Success? ==> forall k :: k in table && table[k].owner != u.id ==> k in r.value && r.value[k] == table[k]
    ensures var r := DeleteTask(table, Some(u), id);
      && (r.Success? ==> forall k :: k in table && table[k].owner != u.id ==> k in r.value && r.value[k] == table[k])
      && (id !in table || table[id].owner != u.id ==> r == Failure(NotFound))
    ensures var r := CreateTask(table, Some(u), newId, input);
      forall k :: k in table && table[k].owner != u.id ==> k in r.value && r.value[k] == table[k]
  {
  }

  /** A task a user creates shows up in that user's list and in no one else's. */
  lemma CreatedTaskIsListedForOwnerOnly(table: TaskTable, u: ServerUser, v: ServerUser, newId: nat, input: TaskInput)
    requires newId !in table
    ensures var t := CreateTask(table, Some(u), newId, input).value;
      && newId in ListTasks(t, Some(u)).value
      && ListTasks(t, Some(u)).value[newId] == NewRowAsWritten(input)
      && (v.id != u.id ==> newId !in ListTasks(t, Some(v)).value)
  {
  }

  /** A task created with only a title is stored, and listed back to its
      owner, with a priority and a status outside the choice lists. */
  lemma TitleOnlyCreateListsLabels(table: TaskTable, u: ServerUser, newId: nat, title: string)
    requires newId !in table
    ensures var listed := ListTasks(CreateTask(table, Some(u), newId, TaskInput(title, None, None, None, None)).value, Some(u)).value;
      && newId in listed
      && listed[newId].priority !in Keys(PRIORITY_CHOICES)
      && listed[newId].status !in Keys(STATUS_CHOICES)
  {
    CreatedTaskIsListedForOwnerOnly(table, u, u, newId, TaskInput(title, None, None, None, None));
    TitleOnlyTaskGetsLabels(title);
  }

  // ---------------------------------------------------------------------------
  // Profile

  /** `UserProfileView.get`: the requesting user. */
  function ProfileGet(requester: Option<ServerUser>): (r: Result<ServerUser, ApiError>)
    ensures r == Failure(NotAuthenticated) <==> !Admits(UserProfile, requester)
    ensures requester.None? ==> r == Failure(NotAuthenticated)
    ensures requester.Some? ==> r == Success(requester.value)
  {
    if !Admits(UserProfile, requester) then Failure(NotAuthenticated) else Success(requester.value)
  }

  /** The profile view refuses exactly the requesters the task views refuse,
      and a user the login accepted gets its own record back. */
  lemma ProfileAgreesWithLogin(data: map<string, string>, requester: Option<ServerUser>, table: TaskTable,
                               authenticate: (Option<string>, Option<string>) -> Option<ServerUser>,
                               tokensFor: ServerUser -> TokenPair)
    ensures ProfileGet(requester).Failure? <==> ListTasks(table, requester).Failure?
    ensures var login := LoginPost(data, authenticate, tokensFor);
      login.LoginOk? ==> ProfileGet(Some(login.user)) == Success(login.user)
  {
  }
}

=== FILE: app.dfy ===
/** The application shell: restoring the session user at startup, signing in
    and out, and choosing between the dashboard and the sign-in forms. */
module App {
  import opened Wrappers
  import opened Records
  import opened Storage
  import Profile

  /** The signed-in user held in component state, and the storage. */
  datatype Session = Session(user: Option<User>, store: Store)

  /** The startup effect: the user stored under `taskManager_user`, if any. */
  function Restore(store: Store): (r: Option<User>)
    ensures USER_KEY !in store ==> r.None?
    ensures USER_KEY in store && store[USER_KEY].UserJson? ==> r == Some(store[USER_KEY].user)
    ensures r.Some? ==> USER_KEY in store && store[USER_KEY].UserJson?
  {
    if USER_KEY in store && store[USER_KEY].UserJson? then Some(store[USER_KEY].user) else None
  }

  function Startup(store: Store): Session
  {
    Session(Restore(store), store)
  }

  /** `handleLogin`, the callback of both the sign-in and the registration form. */
  function Login(s: Session, user: User): (r: Session)
    ensures r.user == Some(user)
    ensures r.store - {USER_KEY} == s.store - {USER_KEY}
  {
    Session(Some(user), s.store[USER_KEY := UserJson(user)])
  }

  /** `handleLogout`: forgets the user and removes the stored user and task
      list, and nothing else: the tokens stay in storage. */
  function Logout(s: Session): (r: Session)
    ensures r.user.None?
    ensures USER_KEY !in r.store && TASKS_KEY !in r.store
    ensures forall k :: k != USER_KEY && k != TASKS_KEY ==> (k in r.store <==> k in s.store)
    ensures forall k :: k in r.store ==> r.store[k] == s.store[k]
  {
    Session(None, s.store - {USER_KEY, TASKS_KEY})
  }

  /** A sign-in survives a reload: the next startup restores the same user. */
  lemma LoginIsRestored(s: Session, user: User)
    ensures Startup(Login(s, user).store).user == Some(user)
  {
  }

  /** After a sign-out the next startup has no user, while both tokens are
      still stored exactly as before. */
  lemma LogoutKeepsTokens(s: Session)
    ensures Startup(Logout(s).store).user.None?
    ensures GetToken(Logout(s).store, ACCESS_TOKEN) == GetToken(s.store, ACCESS_TOKEN)
    ensures GetToken(Logout(s).store, REFRESH_TOKEN) == GetToken(s.store, REFRESH_TOKEN)
  {
  }

  datatype Screen = Spinner | Dashboard(user: User) | SignIn | SignUp

  /** What the shell renders: a spinner until the startup effect has run, the
      dashboard exactly when a user is set, and otherwise the form the toggle
      selects. */
  function Render(loading: bool, user: Option<User>, showLogin: bool): (r: Screen)
    ensures r.Spinner? <==> loading
    ensures r.Dashboard? <==> !loading && user.Some?
    ensures r.Dashboard? ==> r.user == user.value
    ensures r.SignIn? <==> !loading && user.None? && showLogin
  {
    if loading then Spinner
    else if user.Some? then Dashboard(user.value)
    else if showLogin then SignIn else SignUp
  }

  /** From the sign-in or the registration form alike, a successful callback
      puts the dashboard of that user on screen. */
  lemma SignInShowsDashboard(s: Session, user: User, showLogin: bool)
    ensures Render(false, Login(s, user).user, showLogin) == Dashboard(user)
    ensures Render(false, Logout(s).user, showLogin) == (if showLogin then SignIn else SignUp)
  {
  }

  /** A saved profile edit reaches the next startup: the restored user is the
      session user with the new name and email. */
  lemma ProfileUpdateIsRestored(store: Store, session: User, name: string, email: string)
    requires ReadUsers(store).Some?
    ensures Restore(Profile.UpdateProfile(store, session, name, email).store) == Some(session.(name := name, email := email))
  {
  }
}

=== FILE: dashboard.dfy ===
/** The task dashboard's list handlers. Each handler awaits one task call and
    only then replaces the list, so a rejected call leaves the list as it was.
    The awaited result is a parameter: `Some(task)` for a call that resolved
    with `task`, `None` for one that rejected. */
module Dashboard {
  import opened Wrappers
  import opened Records
  import opened Storage
  import opened Seqs
  import opened Api
  import TaskForm

  /** The list after a handler, and the task call it made, if any. */
  datatype Step = Step(tasks: seq<Task>, call: Option<TaskOp>)

  function HasId(id: nat): Task -> bool
  {
    (t: Task) => t.id == id
  }

  function LacksId(id: nat): Task -> bool
  {
    (t: Task) => t.id != id
  }

  /** `handleCreateTask`: the server's task joins the end of the list. */
  function CreateTask(tasks: seq<Task>, taskData: Body, reply: Option<Task>): (r: Step)
    ensures r.call == Some(Api.CreateTask(taskData))
    ensures reply.None? ==> r.tasks == tasks
    ensures reply.Some? ==> |r.tasks| == |tasks| + 1 && tasks <= r.tasks && r.tasks[|tasks|] == reply.value
  {
    Step(if reply.Some? then tasks + [reply.value] else tasks, Some(Api.CreateTask(taskData)))
  }

  /** `prev.map((t) => (t.id === id ? updated : t))` */
  function ReplaceById(tasks: seq<Task>, id: nat, updated: Task): (r: seq<Task>)
    ensures |r| == |tasks|
    ensures forall i :: 0 <= i < |tasks| ==> r[i] == if tasks[i].id == id then updated else tasks[i]
  {
    MapWhere(tasks, HasId(id), (_: Task) => updated)
  }

  /** `handleUpdateTask`: without a task being edited nothing happens and no
      call is made; otherwise every task with the edited id becomes the
      server's task. */
  function UpdateTask(tasks: seq<Task>, editing: Option<Task>, taskData: Body, reply: Option<Task>): (r: Step)
    ensures editing.None? ==> r == Step(tasks, None)
    ensures editing.Some? ==> r.call == Some(Api.UpdateTask(editing.value.id, taskData))
    ensures reply.None? ==> r.tasks == tasks
    ensures editing.Some? && reply.Some? ==> r.tasks == ReplaceById(tasks, editing.value.id, reply.value)
  {
    match editing
    case None => Step(tasks, None)
    case Some(e) =>
      Step(if reply.Some? then ReplaceById(tasks, e.id, reply.value) else tasks, Some(Api.UpdateTask(e.id, taskData)))
  }

  /** `handleDeleteTask`: on success every task with the id leaves the list,
      the others keep their order. */
  function DeleteTask(tasks: seq<Task>, id: nat, deleted: bool): (r: Step)
    ensures r.call == Some(Api.DeleteTask(id))
    ensures !deleted ==> r.tasks == tasks
    ensures deleted ==> forall i :: 0 <= i < |r.tasks| ==> r.tasks[i].id != id
    ensures deleted ==> forall i :: 0 <= i < |tasks| && tasks[i].id != id ==> tasks[i] in r.tasks
  {
    Step(if deleted then Filter(tasks, LacksId(id)) else tasks, Some(Api.DeleteTask(id)))
  }

  /** Deleting keeps the survivors in their relative order, each as often as
      before. */
  lemma DeleteKeepsOrder(a: seq<Task>, b: seq<Task>, id: nat, t: Task)
    ensures DeleteTask(a + b, id, true).tasks == DeleteTask(a, id, true).tasks + DeleteTask(b, id, true).tasks
    ensures t.id != id ==> multiset(DeleteTask(a, id, true).tasks)[t] == multiset(a)[t]
  {
    FilterAppend(a, b, LacksId(id));
    FilterMultiplicity(a, LacksId(id), t);
  }

  /** The position of the first task with the id, or `|tasks|` when none has it. */
  function FirstIndex(tasks: seq<Task>, id: nat): (r: nat)
    ensures r <= |tasks|
    ensures r < |tasks| ==> tasks[r].id == id
    ensures forall j :: 0 <= j < r ==> tasks[j].id != id
  {
    if |tasks| == 0 then 0
    else if tasks[0].id == id then 0
    else 1 + FirstIndex(tasks[1..], id)
  }

  /** `tasks.find((t) => t.id === id)`: the first task with the id. */
  function FindById(tasks: seq<Task>, id: nat): (r: Option<Task>)
    ensures r.None? <==> forall i :: 0 <= i < |tasks| ==> tasks[i].id != id
    ensures r.Some? ==> r.value.id == id && r.value == tasks[FirstIndex(tasks, id)]
  {
    var i := FirstIndex(tasks, id);
    if i < |tasks| then Some(tasks[i]) else None
  }

  /** `handleStatusChange`: sends `{ ...task, status }` for the first task with
      the id (just `{ status }` when none has it) and replaces every task with
      the id by the server's answer. */
  function ChangeStatus(tasks: seq<Task>, id: nat, status: string, reply: Option<Task>): (r: Step)
    ensures var found := FindById(tasks, id);
      && (found.Some? ==> r.call == Some(Api.UpdateTask(id, TaskBody(found.value.(status := status)))))
      && (found.None? ==> r.call == Some(Api.UpdateTask(id, Fields(map["status" := status]))))
    ensures reply.None? ==> r.tasks == tasks
    ensures reply.Some? ==> r.tasks == ReplaceById(tasks, id, reply.value)
  {
    var found := FindById(tasks, id);
    var payload := if found.Some? then TaskBody(found.value.(status := status)) else Fields(map["status" := status]);
    Step(if reply.Some? then ReplaceById(tasks, id, reply.value) else tasks, Some(Api.UpdateTask(id, payload)))
  }

  const ALL := "all"

  /** `filteredTasks`: all tasks for the filter "all", otherwise the tasks with
      exactly the chosen status. */
  function FilterTasks(tasks: seq<Task>, filter: string): (r: seq<Task>)
    ensures filter == ALL ==> r == tasks
    ensures filter != ALL ==> forall i :: 0 <= i < |r| ==> r[i].status == filter && r[i] in tasks
    ensures filter != ALL ==> forall i :: 0 <= i < |tasks| && tasks[i].status == filter ==> tasks[i] in r
  {
    if filter == ALL then tasks else Filter(tasks, (t: Task) => t.status == filter)
  }

  /** Filtering by a status keeps the matching tasks in order and each as often
      as before, and a filtered view splits like its list. */
  lemma FilterTasksKeepsOrder(a: seq<Task>, b: seq<Task>, filter: string, t: Task)
    ensures FilterTasks(a + b, filter) == FilterTasks(a, filter) + FilterTasks(b, filter)
    ensures t.status == filter ==> multiset(FilterTasks(a, filter))[t] == multiset(a)[t]
  {
    if filter != ALL {
      FilterAppend(a, b, (t: Task) => t.status == filter);
      FilterMultiplicity(a, (t: Task) => t.status == filter, t);
    }
  }

  function OwnedBy(uid: int): Task -> bool
  {
    (t: Task) => t.userId == uid
  }

  function NotOwnedBy(uid: int): Task -> bool
  {
    (t: Task) => t.userId != uid
  }

  datatype Saved = Saved(store: Store, tasks: seq<Task>)

  /** `saveTasks`: the locally kept list becomes the other users' tasks followed
      by `updated`, and the dashboard shows `updated`. `None` stands for the
      exception thrown when the stored list cannot be read. */
  function SaveTasks(store: Store, user: User, updated: seq<Task>): (r: Option<Saved>)
    ensures r.None? <==> ReadTasks(store).None?
    ensures r.Some? ==> r.value.tasks == updated && TASKS_KEY in r.value.store
                        && r.value.store[TASKS_KEY].TasksJson?
                        && r.value.store - {TASKS_KEY} == store - {TASKS_KEY}
  {
    match ReadTasks(store)
    case None => None
    case Some(all) =>
      Some(Saved(store[TASKS_KEY := TasksJson(Filter(all, NotOwnedBy(user.id)) + updated)], updated))
  }

  /** Saving loses no other user's task: each keeps its multiplicity, and the
      stored list is the other users' tasks, in their stored order, followed
      by `updated`. The current user's
      stored tasks become exactly the current user's tasks of `updated`. */
  lemma SaveTasksKeepsOtherUsers(store: Store, user: User, updated: seq<Task>, t: Task)
    requires ReadTasks(store).Some?
    ensures var stored := ReadTasks(SaveTasks(store, user, updated).value.store).value;
      var all := ReadTasks(store).value;
      && (t.userId != user.id ==> multiset(stored)[t] >= multiset(all)[t])
      && Filter(stored, NotOwnedBy(user.id)) == Filter(all, NotOwnedBy(user.id)) + Filter(updated, NotOwnedBy(user.id))
      && Filter(stored, OwnedBy(user.id)) == Filter(updated, OwnedBy(user.id))
      && stored == Filter(all, NotOwnedBy(user.id)) + updated
  {
    var all := ReadTasks(store).value;
    var others := Filter(all, NotOwnedBy(user.id));
    var stored := others + updated;
    var saved := SaveTasks(store, user, updated).value;
    assert saved.store[TASKS_KEY] == TasksJson(stored);
    assert ReadTasks(saved.store).value == stored;
    FilterMultiplicity(all, NotOwnedBy(user.id), t);
    assert multiset(stored) == multiset(others) + multiset(updated);
    FilterAppend(others, updated, NotOwnedBy(user.id));
    FilterKeepsAll(others, NotOwnedBy(user.id));
    FilterAppend(others, updated, OwnedBy(user.id));
    NoneOwned(others, user.id);
  }

  lemma {:induction false} NoneOwned(s: seq<Task>, uid: int)
    requires forall i :: 0 <= i < |s| ==> s[i].userId != uid
    ensures Filter(s, OwnedBy(uid)) == []
  {
    if |s| > 0 {
      NoneOwned(s[1..], uid);
    }
  }

  // ---------------------------------------------------------------------------
  // The form and the dashboard together

  /** What one submit of the task form does to the dashboard: the list after it,
      every request sent, and the error the form shows. */
  datatype Flow = Flow(tasks: seq<Task>, requests: seq<Request>, error: string)

  /** As written: the form sends its own POST/PUT and hands the server's task to
      `onSubmit`, and the dashboard's handler sends it to the server a second
      time, through `createTask` or `updateTask`, listing the second answer. */
  function SubmitAsWritten(tasks: seq<Task>, store: Store, editing: Option<Task>, form: TaskForm.Form,
                           formReply: TaskForm.FetchReply, apiReply: Option<Task>): Flow
  {
    var s := TaskForm.Submit(store, editing, form, formReply);
    var first := if s.request.Some? then [s.request.value] else [];
    if s.submitted.None? then Flow(tasks, first, s.error)
    else
      var step := if editing.Some? then UpdateTask(tasks, editing, TaskBody(s.submitted.value), apiReply)
                  else CreateTask(tasks, TaskBody(s.submitted.value), apiReply);
      var second := if step.call.Some? then [WithBearer(TaskRequest(step.call.value), store)] else [];
      Flow(step.tasks, first + second, s.error)
  }

  /** One submit of a new task, with both server calls succeeding, posts the
      task twice: the server ends up with two copies and the list shows the
      second. */
  lemma CreateSubmitPostsTwice(tasks: seq<Task>, store: Store, form: TaskForm.Form, t1: Task, t2: Task)
    requires GetToken(store, ACCESS_TOKEN).Some?
    ensures var f := SubmitAsWritten(tasks, store, None, form, TaskForm.FetchOk(t1), Some(t2));
      && |f.requests| == 2
      && f.requests[0].verb == POST && f.requests[0].url == TASKS_URL
      && f.requests[1].verb == POST && f.requests[1].url == TASKS_URL
      && f.tasks == tasks + [t2]
  {
  }

  /** The submit with the form's result taken as final: `onSubmit` lists the
      task the form's own request returned. */
  function Submit(tasks: seq<Task>, store: Store, editing: Option<Task>, form: TaskForm.Form,
                  formReply: TaskForm.FetchReply): (r: Flow)
    ensures |r.requests| <= 1
    ensures GetToken(store, ACCESS_TOKEN).Some? ==>
              |r.requests| == 1 && r.requests[0].verb == (if editing.Some? then PUT else POST)
    ensures GetToken(store, ACCESS_TOKEN).None? ==> r.tasks == tasks && r.error == TaskForm.NOT_AUTHENTICATED
    ensures !formReply.FetchOk? ==> r.tasks == tasks
    ensures GetToken(store, ACCESS_TOKEN).Some? && formReply.FetchNotOk? ==> r.error != ""
    ensures GetToken(store, ACCESS_TOKEN).Some? && formReply.FetchOk? ==>
              r.error == "" &&
              r.tasks == (if editing.Some? then ReplaceById(tasks, editing.value.id, formReply.task)
                          else tasks + [formReply.task])
  {
    var s := TaskForm.Submit(store, editing, form, formReply);
    var sent := if s.request.Some? then [s.request.value] else [];
    if s.submitted.None? then Flow(tasks, sent, s.error)
    else if editing.Some? then Flow(ReplaceById(tasks, editing.value.id, s.submitted.value), sent, s.error)
    else Flow(tasks + [s.submitted.value], sent, s.error)
  }
}

=== FILE: numerals.dfy ===
/** Decimal rendering of a task id, as a JavaScript template literal
    `${id}` renders a non-negative integer, and its inverse. */
module Numerals {

  function DigitChar(d: nat): (c: char)
    requires d < 10
    ensures '0' <= c <= '9'
  {
    (48 + d) as char
  }

  function DigitValue(c: char): nat
  {
    if '0' <= c <= '9' then c as int - 48 else 0
  }

  /** The decimal digits of `n`, most significant first, with no leading zero. */
  function NatToString(n: nat): (s: string)
    ensures |s| >= 1
    ensures forall i :: 0 <= i < |s| ==> '0' <= s[i] <= '9'
    ensures |s| > 1 ==> s[0] != '0'
  {
    if n < 10 then [DigitChar(n)]
    else NatToString(n / 10) + [DigitChar(n % 10)]
  }

  /** Reads a string of decimal digits back as a number. */
  function ParseNat(s: string): nat
  {
    if |s| == 0 then 0 else 10 * ParseNat(s[..|s| - 1]) + DigitValue(s[|s| - 1])
  }

  /** Reading back a rendered id gives the id. */
  lemma {:induction false} ParseNatToString(n: nat)
    ensures ParseNat(NatToString(n)) == n
  {
    var s := NatToString(n);
    if n >= 10 {
      ParseNatToString(n / 10);
      assert s[..|s| - 1] == NatToString(n / 10);
    }
  }

  /** Distinct ids render as distinct strings. */
  lemma NatToStringInjective(a: nat, b: nat)
    ensures NatToString(a) == NatToString(b) ==> a == b
  {
    ParseNatToString(a);
    ParseNatToString(b);
  }
}

=== FILE: profile.dfy ===
/** The user profile page: the avatar initials, the password change and the
    profile update, both of which rewrite the locally kept user list. */
module Profile {
  import opened Records
  import opened Storage
  import opened Seqs

  // ---------------------------------------------------------------------------
  // Initials

  /** `name.split(" ")`: the pieces between single spaces, empty pieces included. */
  function SplitOnSpace(s: string): (r: seq<string>)
    ensures |r| >= 1
  {
    if |s| == 0 then [""]
    else
      var rest := SplitOnSpace(s[1..]);
      if s[0] == ' ' then [""] + rest else [[s[0]] + rest[0]] + rest[1..]
  }

  /** `.map((n) => n[0]).join("")`: the first character of each piece; an empty
      piece gives `undefined`, which `join` renders as nothing. */
  function FirstChars(parts: seq<string>): string
  {
    if |parts| == 0 then ""
    else (if |parts[0]| > 0 then [parts[0][0]] else []) + FirstChars(parts[1..])
  }

  function UpperAscii(c: char): (u: char)
  {
    if 'a' <= c <= 'z' then (c as int - 32) as char else c
  }

  function Upper(s: string): (r: string)
    ensures |r| == |s|
    ensures forall i :: 0 <= i < |s| ==> r[i] == UpperAscii(s[i])
  {
    if |s| == 0 then "" else [UpperAscii(s[0])] + Upper(s[1..])
  }

  /** `getInitials(name)` on the ASCII range of `toUpperCase`. */
  function Initials(name: string): string
  {
    Upper(FirstChars(SplitOnSpace(name)))
  }

  /** The characters that start a word: not a space, and first or right after
      a space. `atStart` says whether the previous character was a space (or
      there was none). */
  function WordStarts(s: string, atStart: bool): string
  {
    if |s| == 0 then ""
    else if s[0] == ' ' then WordStarts(s[1..], true)
    else (if atStart then [s[0]] else []) + WordStarts(s[1..], false)
  }

  lemma {:induction false} FirstCharsAppend(a: seq<string>, b: seq<string>)
    ensures FirstChars(a + b) == FirstChars(a) + FirstChars(b)
  {
    if |a| == 0 {
      assert a + b == b;
    } else {
      assert (a + b)[1..] == a[1..] + b;
      FirstCharsAppend(a[1..], b);
    }
  }

  /** Splitting and taking first characters picks exactly the word starts: the
      first piece starts the name, every later piece starts after a space. */
  lemma {:induction false} SplitPicksWordStarts(s: string)
    ensures FirstChars(SplitOnSpace(s)) == WordStarts(s, true)
    ensures FirstChars(SplitOnSpace(s)[1..]) == WordStarts(s, false)
  {
    if |s| > 0 {
      var rest := SplitOnSpace(s[1..]);
      SplitPicksWordStarts(s[1..]);
      if s[0] == ' ' {
        FirstCharsAppend([""], rest);
      } else {
        var head := [s[0]] + rest[0];
        assert SplitOnSpace(s) == [head] + rest[1..];
        FirstCharsAppend([head], rest[1..]);
        assert rest == [rest[0]] + rest[1..];
        FirstCharsAppend([rest[0]], rest[1..]);
      }
    }
  }

  /** The initials are the upper-cased word starts of the name, in order: one
      per space-separated word, none for the empty pieces that runs of spaces
      leave behind. */
  lemma InitialsAreWordStarts(name: string)
    ensures Initials(name) == Upper(WordStarts(name, true))
    ensures |Initials(name)| <= |name|
  {
    SplitPicksWordStarts(name);
    WordStartsShorter(name, true);
  }

  lemma {:induction false} WordStartsShorter(s: string, atStart: bool)
    ensures |WordStarts(s, atStart)| <= |s|
  {
    if |s| > 0 {
      WordStartsShorter(s[1..], s[0] == ' ');
    }
  }

  // ---------------------------------------------------------------------------
  // Password change and profile update

  /** JavaScript's `.length`: the number of UTF-16 code units, two for each
      character outside the Basic Multilingual Plane. */
  function Utf16Length(s: string): (n: nat)
    ensures |s| <= n <= 2 * |s|
    ensures (forall i :: 0 <= i < |s| ==> s[i] as int < 0x1_0000) ==> n == |s|
  {
    if |s| == 0 then 0 else (if s[0] as int < 0x1_0000 then 1 else 2) + Utf16Length(s[1..])
  }

  const MISMATCH := "New passwords do not match"
  const TOO_SHORT := "Password must be at least 6 characters"
  const PASSWORD_CHANGED := "Password changed successfully!"
  const PROFILE_UPDATED := "Profile updated successfully!"
  const MIN_PASSWORD := 6

  /** What a handler leaves behind: the storage, the message shown and the
      loading flag. A handler whose deferred update throws leaves the message
      cleared and the flag raised. */
  datatype Outcome = Outcome(store: Store, message: string, loading: bool)

  function HasUserId(id: int): User -> bool
  {
    (u: User) => u.id == id
  }

  /** `handleChangePassword`: the confirmation is checked before the length,
      which is counted in UTF-16 code units;
      only an accepted password rewrites the stored user list, on the entry
      with the session user's id. The current-password field is not read. */
  function ChangePassword(store: Store, session: User, current: string, newPassword: string, confirm: string): (r: Outcome)
    ensures newPassword != confirm ==> r == Outcome(store, MISMATCH, false)
    ensures newPassword == confirm && Utf16Length(newPassword) < MIN_PASSWORD ==> r == Outcome(store, TOO_SHORT, false)
    ensures newPassword == confirm && Utf16Length(newPassword) >= MIN_PASSWORD && ReadUsers(store).Some? ==>
              r.message == PASSWORD_CHANGED && !r.loading &&
              r.store - {USERS_KEY} == store - {USERS_KEY} && USERS_KEY in r.store && r.store[USERS_KEY].UsersJson?
    ensures ReadUsers(store).None? ==> r.store == store
    ensures newPassword == confirm && Utf16Length(newPassword) >= MIN_PASSWORD && ReadUsers(store).None? ==>
              r == Outcome(store, "", true)
  {
    if newPassword != confirm then Outcome(store, MISMATCH, false)
    else if Utf16Length(newPassword) < MIN_PASSWORD then Outcome(store, TOO_SHORT, false)
    else match ReadUsers(store)
      case None => Outcome(store, "", true)
      case Some(users) =>
        var updated := MapWhere(users, HasUserId(session.id), (u: User) => u.(password := newPassword));
        Outcome(store[USERS_KEY := UsersJson(updated)], PASSWORD_CHANGED, false)
  }

  /** An accepted change sets the password of exactly the users with the
      session user's id and changes nothing else about any user. */
  lemma ChangePasswordTouchesOnlyOwner(store: Store, session: User, current: string, newPassword: string)
    requires Utf16Length(newPassword) >= MIN_PASSWORD && ReadUsers(store).Some?
    ensures var before := ReadUsers(store).value;
      var after := ReadUsers(ChangePassword(store, session, current, newPassword, newPassword).store).value;
      && |after| == |before|
      && forall i :: 0 <= i < |before| ==>
           after[i] == if before[i].id == session.id then before[i].(password := newPassword) else before[i]
  {
  }

  /** The length rule counts code units, not characters: three emoji make a
      password of length six, which is accepted, while three letters are not. */
  lemma AstralCharactersCountTwice(store: Store, session: User, current: string)
    requires ReadUsers(store).Some?
    ensures ChangePassword(store, session, current, "\U{1F600}\U{1F600}\U{1F600}", "\U{1F600}\U{1F600}\U{1F600}").message == PASSWORD_CHANGED
    ensures ChangePassword(store, session, current, "abc", "abc").message == TOO_SHORT
  {
    assert Utf16Length("\U{1F600}\U{1F600}\U{1F600}") == 6;
  }

  /** The outcome does not depend on what was typed as the current password. */
  lemma CurrentPasswordIgnored(store: Store, session: User, c1: string, c2: string, newPassword: string, confirm: string)
    ensures ChangePassword(store, session, c1, newPassword, confirm) == ChangePassword(store, session, c2, newPassword, confirm)
  {
  }

  /** `handleUpdateProfile`: the users with the session user's id take the new
      name and email in the stored list, and the stored session user becomes
      the old session user with the new name and email. */
  function UpdateProfile(store: Store, session: User, name: string, email: string): (r: Outcome)
    ensures ReadUsers(store).None? ==> r == Outcome(store, "", true)
    ensures ReadUsers(store).Some? ==>
              && r.message == PROFILE_UPDATED && !r.loading
              && r.store - {USERS_KEY, USER_KEY} == store - {USERS_KEY, USER_KEY}
              && USER_KEY in r.store && r.store[USER_KEY] == UserJson(session.(name := name, email := email))
  {
    match ReadUsers(store)
    case None => Outcome(store, "", true)
    case Some(users) =>
      var updated := MapWhere(users, HasUserId(session.id), (u: User) => u.(name := name, email := email));
      Outcome(store[USERS_KEY := UsersJson(updated)][USER_KEY := UserJson(session.(name := name, email := email))],
              PROFILE_UPDATED, false)
  }

  /** The profile update rewrites name and email of exactly the users with the
      session user's id; their other fields, and every other user, stay. */
  lemma UpdateProfileTouchesOnlyOwner(store: Store, session: User, name: string, email: string)
    requires ReadUsers(store).Some?
    ensures var before := ReadUsers(store).value;
      var after := ReadUsers(UpdateProfile(store, session, name, email).store).value;
      && |after| == |before|
      && forall i :: 0 <= i < |before| ==>
           after[i] == if before[i].id == session.id then before[i].(name := name, email := email) else before[i]
  {
    var after := UpdateProfile(store, session, name, email).store;
    assert after[USERS_KEY] == UsersJson(MapWhere(ReadUsers(store).value, HasUserId(session.id),
                                                  (u: User) => u.(name := name, email := email)));
  }
}

=== FILE: records.dfy ===
/** The client's two record shapes, a task and a user, and the status and
    priority strings the client compares them against.

    A string-valued field uses the empty string for every falsy JavaScript
    value (a missing key, `null`, `undefined` or `""`) where the modelled code
    only tests it for truthiness, compares it with a literal or copies it into
    another object. The one exception is the due date under `dueDate`: the
    form serialises it, and `JSON.stringify` drops a key whose value is
    `undefined` but keeps an empty string, so there a missing key (`None`) and
    an empty date (`Some("")`) are told apart. */
module Records {
  import opened Wrappers

  const TODO := "todo"
  const IN_PROGRESS := "in-progress"
  const COMPLETED := "completed"

  const LOW := "low"
  const MEDIUM := "medium"
  const HIGH := "high"

  /** The three statuses the client cycles through and filters by. */
  predicate KnownStatus(s: string)
  {
    s == TODO || s == IN_PROGRESS || s == COMPLETED
  }

  /** A task object as the client holds it. The due date is carried under two
      independent keys because the client reads both spellings: `dueDate` (the
      form and the statistics) and `due_date` (the list view and the server
      model). Statuses and priorities stay plain strings: the server may hand
      back values outside the client's literals, and the client code has a
      default branch for them. */
  datatype Task = Task(
    id: nat,
    title: string,
    description: string,
    priority: string,
    status: string,
    dueDate: Option<string>, // value under the key `dueDate`; None when the key is absent
    dueDateSnake: string,  // value under the key `due_date`
    userId: int)           // value under the key `userId`

  /** A user object as the client stores it; `password` is only present in the
      locally kept user list. */
  datatype User = User(id: int, name: string, email: string, password: string)
}

=== FILE: seqs.dfy ===
/** The two list transformers the client leans on: `Array.prototype.filter`
    and a `map` that rewrites exactly the elements a predicate selects. */
module Seqs {

  /** The elements of `s` that satisfy `keep`, in their original order. */
  function Filter<T>(s: seq<T>, keep: T -> bool): (r: seq<T>)
    ensures |r| <= |s|
    ensures forall i :: 0 <= i < |r| ==> r[i] in s && keep(r[i])
    ensures forall i :: 0 <= i < |s| && keep(s[i]) ==> s[i] in r
  {
    if |s| == 0 then []
    else (if keep(s[0]) then [s[0]] else []) + Filter(s[1..], keep)
  }

  /** Filtering distributes over concatenation: the relative order of the kept
      elements is exactly their order in the input. */
  lemma {:induction false} FilterAppend<T>(a: seq<T>, b: seq<T>, keep: T -> bool)
    ensures Filter(a + b, keep) == Filter(a, keep) + Filter(b, keep)
  {
    if |a| == 0 {
      assert a + b == b;
    } else {
      assert (a + b)[1..] == a[1..] + b;
      FilterAppend(a[1..], b, keep);
    }
  }

  /** A filter that every element passes returns its input unchanged. */
  lemma {:induction false} FilterKeepsAll<T>(s: seq<T>, keep: T -> bool)
    requires forall i :: 0 <= i < |s| ==> keep(s[i])
    ensures Filter(s, keep) == s
  {
    if |s| > 0 {
      FilterKeepsAll(s[1..], keep);
    }
  }

  /** Filtering keeps every occurrence of a selected element and drops every
      occurrence of a rejected one. */
  lemma {:induction false} FilterMultiplicity<T>(s: seq<T>, keep: T -> bool, x: T)
    ensures multiset(Filter(s, keep))[x] == if keep(x) then multiset(s)[x] else 0
  {
    if |s| > 0 {
      FilterMultiplicity(s[1..], keep, x);
      assert s == [s[0]] + s[1..];
      assert multiset(s) == multiset([s[0]]) + multiset(s[1..]);
    }
  }

  /** Two filters with disjoint predicates select no more elements together
      than the input holds. */
  lemma {:induction false} DisjointFiltersFit<T>(s: seq<T>, p: T -> bool, q: T -> bool)
    requires forall x :: !(p(x) && q(x))
    ensures |Filter(s, p)| + |Filter(s, q)| <= |s|
  {
    if |s| > 0 {
      DisjointFiltersFit(s[1..], p, q);
    }
  }

  /** Three pairwise disjoint filters select at most the whole input, and
      exactly the whole input when every element satisfies one of them. */
  lemma {:induction false} DisjointFiltersPartition<T>(s: seq<T>, p: T -> bool, q: T -> bool, o: T -> bool)
    requires forall x :: !(p(x) && q(x)) && !(p(x) && o(x)) && !(q(x) && o(x))
    ensures |Filter(s, p)| + |Filter(s, q)| + |Filter(s, o)| <= |s|
    ensures (forall i :: 0 <= i < |s| ==> p(s[i]) || q(s[i]) || o(s[i])) ==>
              |Filter(s, p)| + |Filter(s, q)| + |Filter(s, o)| == |s|
  {
    if |s| > 0 {
      DisjointFiltersPartition(s[1..], p, q, o);
      assert forall i :: 0 <= i < |s[1..]| ==> s[1..][i] == s[i + 1];
    }
  }

  /** `s.map(x => hit(x) ? f(x) : x)`: the elements `hit` selects are rewritten
      by `f`, every other element stays where it was. */
  function MapWhere<T>(s: seq<T>, hit: T -> bool, f: T -> T): (r: seq<T>)
    ensures |r| == |s|
    ensures forall i :: 0 <= i < |s| ==> r[i] == if hit(s[i]) then f(s[i]) else s[i]
  {
    if |s| == 0 then []
    else [if hit(s[0]) then f(s[0]) else s[0]] + MapWhere(s[1..], hit, f)
  }

  /** `n` copies of `x`. */
  function Repeat<T>(x: T, n: nat): (r: seq<T>)
    ensures |r| == n
    ensures forall i :: 0 <= i < n ==> r[i] == x
  {
    if n == 0 then [] else [x] + Repeat(x, n - 1)
  }
}

=== FILE: stats.dfy ===
/** The summary counters shown beside the task list. */
module Stats {
  import opened Wrappers
  import opened Records
  import opened Seqs
  import TaskView

  function HasStatus(status: string): Task -> bool
  {
    (t: Task) => t.status == status
  }

  /** Counted as overdue: has a truthy `dueDate`, is not completed, and the date
      lies in the past (the parameter `isPast` stands for `new Date(d) < new Date()`). */
  function OverdueTest(isPast: string -> bool): Task -> bool
  {
    (t: Task) => t.dueDate.Some? && t.dueDate.value != "" && t.status != COMPLETED && isPast(t.dueDate.value)
  }

  function OpenHighPriority(t: Task): bool
  {
    t.priority == HIGH && t.status != COMPLETED
  }

  /** `Math.round(completed / total * 100)`, or 0 for an empty list, computed on
      exact rationals: the nearest whole percent, a half rounding up. */
  function CompletionPercent(completed: nat, total: nat): (r: nat)
    ensures total == 0 ==> r == 0
    ensures total > 0 ==> -(total as int) <= 200 * completed - 2 * total * r < total
    ensures completed <= total ==> r <= 100
    ensures total > 0 && completed == total ==> r == 100
    ensures completed == 0 ==> r == 0
  {
    if total == 0 then 0
    else
      var r := (200 * completed + total) / (2 * total);
      RoundingBounds(completed, total, r);
      r
  }

  lemma RoundingBounds(completed: nat, total: nat, r: nat)
    requires total > 0 && r == (200 * completed + total) / (2 * total)
    ensures -(total as int) <= 200 * completed - 2 * total * r < total
    ensures completed <= total ==> r <= 100
    ensures completed == total ==> r == 100
    ensures completed == 0 ==> r == 0
  {
    var m := (200 * completed + total) % (2 * total);
    assert 200 * completed + total == 2 * total * r + m && 0 <= m < 2 * total;
    if completed <= total {
      assert 2 * total * r <= 201 * total < 2 * total * 101;
      CancelPositive(2 * total, r, 101);
    }
    if completed == total {
      assert 2 * total * 99 < 2 * total * r;
      CancelPositive(2 * total, 99, r);
    }
    if completed == 0 {
      assert 2 * total * r < 2 * total * 1;
      CancelPositive(2 * total, r, 1);
    }
  }

  lemma CancelPositive(k: int, a: int, b: int)
    requires k > 0 && k * a < k * b
    ensures a < b
  {
    assert k * (b - a) == k * b - k * a;
  }

  datatype Summary = Summary(
    total: nat,
    completed: nat,
    inProgress: nat,
    todo: nat,
    completionPercent: nat,
    overdue: nat,
    highPriority: nat)

  /** All counters of the statistics panel for one task list. */
  function Summarize(tasks: seq<Task>, isPast: string -> bool): (r: Summary)
    ensures r.total == |tasks|
    ensures r.completed + r.inProgress + r.todo <= r.total
    ensures (forall i :: 0 <= i < |tasks| ==> KnownStatus(tasks[i].status)) ==>
              r.completed + r.inProgress + r.todo == r.total
    ensures r.completionPercent == CompletionPercent(r.completed, r.total)
    ensures r.completionPercent <= 100
    ensures r.total == 0 ==> r == Summary(0, 0, 0, 0, 0, 0, 0)
    ensures r.overdue <= r.total - r.completed
    ensures r.highPriority <= r.total - r.completed
  {
    var completed := Filter(tasks, HasStatus(COMPLETED));
    var inProgress := Filter(tasks, HasStatus(IN_PROGRESS));
    var todo := Filter(tasks, HasStatus(TODO));
    var overdue := Filter(tasks, OverdueTest(isPast));
    var high := Filter(tasks, OpenHighPriority);
    DisjointFiltersPartition(tasks, HasStatus(COMPLETED), HasStatus(IN_PROGRESS), HasStatus(TODO));
    DisjointFiltersFit(tasks, OverdueTest(isPast), HasStatus(COMPLETED));
    DisjointFiltersFit(tasks, OpenHighPriority, HasStatus(COMPLETED));
    Summary(|tasks|, |completed|, |inProgress|, |todo|,
            CompletionPercent(|completed|, |tasks|), |overdue|, |high|)
  }

  /** The panel counts task by task: putting one task in front of a list adds
      one to the total, and one to exactly those counters whose test the task
      passes — its status for the three status counters, a truthy past
      `dueDate` on an open task for the overdue counter, high priority on an
      open task for the high-priority counter. Together with the empty list's
      all-zero summary this fixes every counter. */
  lemma {:induction false} SummarizeCountsTaskByTask(t: Task, rest: seq<Task>, isPast: string -> bool)
    ensures var s := Summarize([t] + rest, isPast);
      var r := Summarize(rest, isPast);
      && s.total == r.total + 1
      && s.completed == r.completed + (if t.status == COMPLETED then 1 else 0)
      && s.inProgress == r.inProgress + (if t.status == IN_PROGRESS then 1 else 0)
      && s.todo == r.todo + (if t.status == TODO then 1 else 0)
      && s.overdue == r.overdue +
           (if t.dueDate.Some? && t.dueDate.value != "" && t.status != COMPLETED && isPast(t.dueDate.value) then 1 else 0)
      && s.highPriority == r.highPriority + (if t.priority == HIGH && t.status != COMPLETED then 1 else 0)
  {
    assert ([t] + rest)[1..] == rest;
  }

  /** The panel reads the `dueDate` key only: tasks whose date sits under
      `due_date` (the server's spelling) and that have no `dueDate` key are
      never overdue, whatever that date. */
  lemma {:induction false} OverdueIgnoresSnakeCaseDate(tasks: seq<Task>, isPast: string -> bool)
    requires forall i :: 0 <= i < |tasks| ==> tasks[i].dueDate.None?
    ensures Summarize(tasks, isPast).overdue == 0
  {
    if |tasks| > 0 {
      OverdueIgnoresSnakeCaseDate(tasks[1..], isPast);
      assert tasks == [tasks[0]] + tasks[1..];
      assert Filter(tasks, OverdueTest(isPast)) == Filter(tasks[1..], OverdueTest(isPast));
    }
  }

  /** The list view and the panel judge a task by different keys. A task as
      the server sends it — a past `due_date` and no `dueDate` — gets a red
      overdue badge in the list while the panel counts no overdue task. With
      both keys holding the same date, and the two date tests agreeing on it,
      badge and panel agree. */
  lemma BadgeAndPanelReadDifferentDueDates(t: Task, isPast: string -> bool, beforeToday: string -> bool)
    requires t.status != COMPLETED
    ensures t.dueDate.None? && t.dueDateSnake != "" && beforeToday(t.dueDateSnake) ==>
              TaskView.DueBadgeOf(t, beforeToday) == TaskView.Badge(true) && Summarize([t], isPast).overdue == 0
    ensures t.dueDate == Some(t.dueDateSnake) && isPast(t.dueDateSnake) == beforeToday(t.dueDateSnake) ==>
              (TaskView.DueBadgeOf(t, beforeToday) == TaskView.Badge(true) <==> Summarize([t], isPast).overdue == 1)
  {
    SummarizeCountsTaskByTask(t, [], isPast);
    assert [t] + [] == [t];
  }
}

=== FILE: storage.dfy ===
/** The browser's `localStorage` as an in-memory map from key to value.

    The client writes either raw strings (the tokens) or `JSON.stringify` of a
    user, a user list or a task list. A stored JSON blob is kept here in decoded
    form, so `JSON.parse(JSON.stringify(x))` is the identity by construction. */
module Storage {
  import opened Wrappers
  import opened Records

  datatype Value =
    | Text(text: string)
    | UserJson(user: User)
    | UsersJson(users: seq<User>)
    | TasksJson(tasks: seq<Task>)

  type Store = map<string, Value>

  const ACCESS_TOKEN := "access_token"
  const REFRESH_TOKEN := "refresh_token"
  const USER_KEY := "taskManager_user"
  const USERS_KEY := "taskManager_users"
  const TASKS_KEY := "taskManager_tasks"

  /** `localStorage.getItem(key)` for a key that holds a raw string, keeping only
      a truthy result: `Some(s)` exactly when the key holds the non-empty string `s`. */
  function GetToken(store: Store, key: string): (r: Option<string>)
    ensures r.Some? <==> key in store && store[key].Text? && store[key].text != ""
    ensures r.Some? ==> store[key] == Text(r.value)
  {
    if key in store && store[key].Text? && store[key].text != "" then Some(store[key].text) else None
  }

  /** `JSON.parse(localStorage.getItem(key) || "[]")` where the caller needs a
      list of users. `None` stands for the exception the client then throws,
      when the stored value is not such a list. */
  function ReadUsers(store: Store): (r: Option<seq<User>>)
    ensures USERS_KEY !in store ==> r == Some([])
    ensures USERS_KEY in store && store[USERS_KEY].UsersJson? ==> r == Some(store[USERS_KEY].users)
  {
    if USERS_KEY !in store then Some([])
    else match store[USERS_KEY]
      case UsersJson(us) => Some(us)
      case Text(t) => if t == "" then Some([]) else None
      case _ => None
  }

  /** The same read for the locally kept task list. */
  function ReadTasks(store: Store): (r: Option<seq<Task>>)
    ensures TASKS_KEY !in store ==> r == Some([])
    ensures TASKS_KEY in store && store[TASKS_KEY].TasksJson? ==> r == Some(store[TASKS_KEY].tasks)
  {
    if TASKS_KEY !in store then Some([])
    else match store[TASKS_KEY]
      case TasksJson(ts) => Some(ts)
      case Text(t) => if t == "" then Some([]) else None
      case _ => None
  }
}

=== FILE: task_form.dfy ===
/** The task form: its field defaults, the prefill for an edited task, and the
    submit handler, which talks to the server with `fetch` on its own. */
module TaskForm {
  import opened Wrappers
  import opened Records
  import opened Storage
  import opened Api

  /** The five controlled fields of the form. The due date is `None` when it
      was set from a task that has no `dueDate` key (the state then holds
      `undefined`). */
  datatype Form = Form(title: string, description: string, priority: string, status: string, dueDate: Option<string>)

  /** The state of a freshly opened form. */
  const BLANK := Form("", "", MEDIUM, TODO, Some(""))

  /** The form's fields after the effect on `task` has run: a task to edit
      overwrites all five fields, reading its due date from the `dueDate` key;
      without one the fields keep their state. */
  function Prefill(task: Option<Task>, current: Form): (r: Form)
    ensures task.None? ==> r == current
    ensures task.Some? ==> r.title == task.value.title && r.description == task.value.description
                           && r.priority == task.value.priority && r.status == task.value.status
                           && r.dueDate == task.value.dueDate
  {
    match task
    case None => current
    case Some(t) => Form(t.title, t.description, t.priority, t.status, t.dueDate)
  }

  /** A fresh form asks for a medium-priority todo task with nothing filled in. */
  lemma BlankFormDefaults()
    ensures BLANK.title == "" && BLANK.description == "" && BLANK.dueDate == Some("")
    ensures BLANK.priority == MEDIUM && BLANK.status == TODO
    ensures KnownStatus(BLANK.status)
  {
  }

  /** The JSON object the form sends, `JSON.stringify({ title, description,
      priority, status, dueDate })`: the `dueDate` key is dropped when its value
      is `undefined`, and is sent, empty or not, otherwise. */
  function Payload(f: Form): (r: map<string, string>)
    ensures r.Keys == {"title", "description", "priority", "status"} + (if f.dueDate.Some? then {"dueDate"} else {})
    ensures "due_date" !in r
    ensures r["title"] == f.title && r["description"] == f.description && r["priority"] == f.priority
    ensures r["status"] == f.status
    ensures f.dueDate.Some? ==> r["dueDate"] == f.dueDate.value
  {
    var fields := map["title" := f.title, "description" := f.description, "priority" := f.priority,
                      "status" := f.status];
    if f.dueDate.Some? then fields["dueDate" := f.dueDate.value] else fields
  }

  /** Editing sends the edited task's own fields: whatever the form held
      before, the payload after the prefill carries the task's title,
      description, priority and status, and its `dueDate` exactly when the task
      has that key. A task as the server sends it, with its date only under
      `due_date`, is sent back with no due date under either key. */
  lemma PrefillPayload(t: Task, f: Form)
    ensures var p := Payload(Prefill(Some(t), f));
      && p["title"] == t.title && p["description"] == t.description
      && p["priority"] == t.priority && p["status"] == t.status
      && ("dueDate" in p <==> t.dueDate.Some?)
      && (t.dueDate.Some? ==> p["dueDate"] == t.dueDate.value)
      && (t.dueDate.None? ==> "dueDate" !in p && "due_date" !in p)
  {
  }

  /** How the `fetch` call settles: a 2xx with the parsed task, a non-2xx with
      the `detail` field of its body (empty when absent), or an exception
      (a transport failure or a body that is not JSON) with its message. */
  datatype FetchReply = FetchOk(task: Task) | FetchNotOk(detail: string) | FetchThrows(message: string)

  /** What one submit leaves behind: the request it sent, if any, the error
      shown, the loading flag, and the task handed to `onSubmit`, if any. */
  datatype Submission = Submission(request: Option<Request>, error: string, loading: bool, submitted: Option<Task>)

  const NOT_AUTHENTICATED := "User not authenticated"
  const GENERIC_ERROR := "Something went wrong"

  /** The request the form sends for a stored access token: PUT on the task's
      own URL when editing, POST on the collection otherwise. */
  function FormRequest(editing: Option<Task>, form: Form, token: string): Request
  {
    Request(if editing.Some? then PUT else POST,
            if editing.Some? then TaskUrl(editing.value.id) else TASKS_URL,
            Fields(Payload(form)), Some("Bearer " + token), false)
  }

  /** `handleSubmit`. */
  function Submit(store: Store, editing: Option<Task>, form: Form, reply: FetchReply): (r: Submission)
    ensures !r.loading
    ensures GetToken(store, ACCESS_TOKEN).None? ==> r == Submission(None, NOT_AUTHENTICATED, false, None)
    ensures GetToken(store, ACCESS_TOKEN).Some? ==>
              r.request == Some(FormRequest(editing, form, GetToken(store, ACCESS_TOKEN).value))
    ensures r.submitted.Some? <==> GetToken(store, ACCESS_TOKEN).Some? && reply.FetchOk?
    ensures r.submitted.Some? ==> r.submitted.value == reply.task && r.error == ""
    ensures GetToken(store, ACCESS_TOKEN).Some? && reply.FetchNotOk? ==>
              r.error == (if reply.detail != "" then reply.detail else GENERIC_ERROR)
    ensures GetToken(store, ACCESS_TOKEN).Some? && reply.FetchThrows? ==> r.error == reply.message
  {
    var token := GetToken(store, ACCESS_TOKEN);
    if token.None? then Submission(None, NOT_AUTHENTICATED, false, None)
    else
      var request := Some(FormRequest(editing, form, token.value));
      match reply
      case FetchOk(t) => Submission(request, "", false, Some(t))
      case FetchNotOk(detail) => Submission(request, if detail != "" then detail else GENERIC_ERROR, false, None)
      case FetchThrows(message) => Submission(request, message, false, None)
  }

  /** The form and the API layer agree on where a task lives: an edit goes to
      the URL the update and delete calls use, a creation to the collection. */
  lemma SubmitTargetsTaskUrls(store: Store, editing: Option<Task>, form: Form, reply: FetchReply, p: Body)
    requires GetToken(store, ACCESS_TOKEN).Some?
    ensures var req := Submit(store, editing, form, reply).request.value;
      && (editing.Some? ==> req.verb == PUT && req.url == TaskRequest(UpdateTask(editing.value.id, p)).url
                                           && req.url == TaskRequest(DeleteTask(editing.value.id)).url)
      && (editing.None? ==> req.verb == POST && req.url == TaskRequest(CreateTask(p)).url)
  {
  }
}

=== FILE: task_view.dfy ===
/** The decisions behind the task list view: the status toggle, the priority
    badge colour, the status icon and the overdue test. */
module TaskView {
  import opened Records

  /** The status the toggle button requests: completed goes back to todo, todo
      moves to in-progress, and anything else (in-progress included) completes. */
  function NextStatus(status: string): (r: string)
    ensures KnownStatus(r)
    ensures status == COMPLETED ==> r == TODO
    ensures status == TODO ==> r == IN_PROGRESS
    ensures status != COMPLETED && status != TODO ==> r == COMPLETED
  {
    if status == COMPLETED then TODO
    else if status == TODO then IN_PROGRESS
    else COMPLETED
  }

  /** On the three known statuses the toggle is a cycle of length three: it
      never stays put, and three presses bring the task back. */
  lemma NextStatusCycles(status: string)
    requires KnownStatus(status)
    ensures NextStatus(status) != status
    ensures NextStatus(NextStatus(status)) != status
    ensures NextStatus(NextStatus(NextStatus(status))) == status
  {
  }

  /** Every known status is reached by exactly one known status, so repeated
      presses visit all three. */
  lemma NextStatusIsPermutation(a: string, b: string)
    requires KnownStatus(a) && KnownStatus(b)
    ensures NextStatus(a) == NextStatus(b) ==> a == b
    ensures exists c :: KnownStatus(c) && NextStatus(c) == a
  {
    var c := if a == TODO then COMPLETED else if a == IN_PROGRESS then TODO else IN_PROGRESS;
    assert KnownStatus(c) && NextStatus(c) == a;
  }

  const HIGH_CLASS := "bg-red-100 text-red-800 dark:bg-red-900 dark:text-red-200"
  const MEDIUM_CLASS := "bg-yellow-100 text-yellow-800 dark:bg-yellow-900 dark:text-yellow-200"
  const LOW_CLASS := "bg-green-100 text-green-800 dark:bg-green-900 dark:text-green-200"
  const DEFAULT_CLASS := "bg-gray-100 text-gray-800 dark:bg-gray-900 dark:text-gray-200"

  /** The badge classes for a priority. */
  function PriorityColor(priority: string): string
  {
    if priority == HIGH then HIGH_CLASS
    else if priority == MEDIUM then MEDIUM_CLASS
    else if priority == LOW then LOW_CLASS
    else DEFAULT_CLASS
  }

  /** The three known priorities get three different colours, and every other
      string (a capitalised `"Medium"` included) falls back to grey. */
  lemma PriorityColorsDistinguish(p: string, q: string)
    ensures p != HIGH && p != MEDIUM && p != LOW <==> PriorityColor(p) == DEFAULT_CLASS
    ensures PriorityColor(p) == PriorityColor(q) && PriorityColor(p) != DEFAULT_CLASS ==> p == q
  {
  }

  datatype Icon = CheckCircle | PlayCircle | Circle

  /** The icon drawn inside the toggle button. */
  function StatusIcon(status: string): Icon
  {
    if status == COMPLETED then CheckCircle
    else if status == IN_PROGRESS then PlayCircle
    else Circle
  }

  /** The icon identifies the status exactly for completed and in-progress;
      todo shares the plain circle with every unknown status. */
  lemma StatusIconClassifies(status: string)
    ensures StatusIcon(status) == CheckCircle <==> status == COMPLETED
    ensures StatusIcon(status) == PlayCircle <==> status == IN_PROGRESS
    ensures StatusIcon(status) == Circle <==> status != COMPLETED && status != IN_PROGRESS
  {
  }

  /** `isOverdue(dueDate)`. The date comparison `due < today` on a different
      calendar day is the parameter `beforeToday`; a missing due date never
      reaches it. */
  function IsOverdue(dueDate: string, beforeToday: string -> bool): (r: bool)
    ensures dueDate == "" ==> !r
    ensures r <==> dueDate != "" && beforeToday(dueDate)
  {
    if dueDate == "" then false else beforeToday(dueDate)
  }

  /** Whether the list view draws a due-date badge for a task, and whether it
      draws it as overdue. The list view reads the `due_date` key. */
  datatype DueBadge = NoBadge | Badge(overdue: bool)

  function DueBadgeOf(task: Task, beforeToday: string -> bool): (r: DueBadge)
    ensures r.NoBadge? <==> task.dueDateSnake == ""
    ensures r.Badge? ==> r.overdue == beforeToday(task.dueDateSnake)
  {
    if task.dueDateSnake == "" then NoBadge else Badge(IsOverdue(task.dueDateSnake, beforeToday))
  }
}

=== FILE: wrappers.dfy ===
/** Option and Result, the failure-carrying datatypes the rest of the model uses
    for a JavaScript value that may be missing and for a Python call that may raise. */
module Wrappers {

  /** A value that may be absent (`null` / `undefined` on the client side). */
  datatype Option<+T> = None | Some(value: T)

  /** A computation that either returns a value or fails with an error. */
  datatype Result<+T, +E> = Success(value: T) | Failure(error: E)
}
